=== FILE: README.md ===
# Space Invaders: the per-frame simulation

A Dafny model of the game logic in `invaders.py`. The model covers the
player, the enemy formation, the two kinds of bullet, the barrier blocks, and
the main loop's frame of simulation. One frame means handling the shoot and
restart key presses, moving the player, the formation's march and fire,
advancing every sprite, the three collision passes, the game-over checks and
the wave-clear level advance. The state the loop keeps in module globals
(score, level, direction, speed, fire chance, game-over flag) becomes one
`Session` value. Each frame is the pure function `Game.Tick`.

Modules, in dependency order:

- `Wrappers`: `Option`, for a sprite that leaves its group.
- `Seqs`: order-preserving selection from a group. `Somes` lists the
  present entries of a per-sprite outcome; `SomesIndexMap` says its `n`-th
  value sits at the `n`-th present position. `SubSeq` says one list is
  another with entries left out and the rest in order.
- `Geometry`: screen size and integer rectangles with pygame's `Rect`
  conventions (`centerx = x + w // 2`, strict `colliderect`).
- `Sprites`: `Player.update`, `Player.shoot`, the two bullet `update`s,
  `BarrierBlock.hit`, and group-wide bullet advance.
- `Formation`: the march with its bounce and drop, the lowest-in-column test
  and the enemy fire step.
- `Collisions`: `groupcollide`, `spritecollide` and the barrier pass, each
  walking its groups in order and removing sprites as it goes.
- `Setup`: the new player, `create_enemy_wave` and `create_barriers`.
- `Game`: the session, the event handling, `advance_level`, and the stages
  of a frame in the loop's order.
- `Rules`: whole-frame properties.
  - The invariant `Valid` holds at the start and every frame keeps it.
  - A frame with the game over and no restart pressed changes nothing.
  - A restart rebuilds the game.
  - The score counts kills and never decreases within a run.
  - Clearing a wave raises the level in the same frame.
  - The fire chance caps at 0.01.

Inputs the program reads from outside become parameters of a frame.
`Game.Input` carries three things:

- the key presses of the event queue, in order;
- the movement keys held;
- one random draw per enemy, in group order, as `floor(random() * 10000)`.

The fire chance is kept in units of 1/10000, so `random() < chance` is
`draw < chance`. A draw missing from the sequence counts as a miss.

Enemy speed is kept in tenths of a pixel per frame.

Groups are sequences in insertion order. The source's identity test
`lowest is e` becomes a comparison of positions in the enemy sequence. Python's
`max` returns the first of several equal maxima, and `LowestInColumn` does
the same.

Points of the code's behaviour that the model keeps:

- In a frame, the shoot and restart presses are handled before the player
  moves and before its cooldown drops (lines 172-201).
- The player is in the group of all sprites. It is therefore updated twice per
  frame (lines 201 and 228): it moves up to 10 pixels and its cooldown drops
  by up to 2. A bullet can therefore be fired at most every sixth frame.
- The level advance happens in the same frame that destroys the last enemy
  (lines 247-253), not in the next one. That frame can also set the
  game-over flag.
- A restart resets speed, score, level, direction and the flag (lines
  182-197) but not `ENEMY_BULLET_CHANCE`. After a restart the fire chance is
  whatever earlier level advances raised it to. `Game.RestartGame` keeps it.
- `groupcollide` walks the enemies in group order, and each enemy takes
  every bullet still in play that overlaps it. An enemy hit by two bullets
  consumes both. A bullet consumed by an earlier enemy cannot hit a later
  one.

## Model

| member | source | states |
|---|---|---|
| Geometry.CenteredAt | invaders.py:77 | `get_rect(center=…)` yields a rectangle of the given size whose centre is the given point |
| Geometry.MidBottomAt | invaders.py:41 | `get_rect(midbottom=…)` yields a rectangle of the given size whose bottom-centre is the given point |
| Sprites.KeyDelta | invaders.py:48-51 | left alone moves −5, right alone +5, both or neither cancel |
| Sprites.UpdatePlayer | invaders.py:45-55 | the player keeps its height and size and stays on screen; it lands on the requested position when that fits, and against the left or right edge otherwise; the cooldown drops by one exactly when positive |
| Sprites.UpdatePlayerTwiceEffect | invaders.py:201-228 | with both updates of a frame the player stays on screen, moves at most 10 pixels, does not move when the keys cancel, moves exactly 10 when room allows, and loses up to two cooldown units |
| Sprites.CooldownAfterFrames | invaders.py:54-55 | after n frames the cooldown is `max(0, c − 2n)` |
| Sprites.PlayerShot | invaders.py:59 | the player's bullet is 4 by 10, centred on the player's top edge, moving up at 10 |
| Sprites.Shoot | invaders.py:57-62 | a bullet is fired if and only if the cooldown is zero; firing sets the cooldown to 12; otherwise the player is unchanged |
| Sprites.ShotSpacing | invaders.py:57-62 | after a shot, the player can fire again exactly when six or more frames have passed |
| Sprites.StepPlayerBullet | invaders.py:81-84 | the bullet moves by its velocity and survives if and only if it is not wholly above or below the screen |
| Sprites.StepEnemyBullet | invaders.py:94-97 | the enemy bullet moves by its velocity and survives if and only if it is not wholly below the screen |
| Sprites.Hit | invaders.py:107-113 | a hit takes one health; the block goes exactly when it had at most one left, and otherwise keeps its place |
| Sprites.Advance | invaders.py:228 | every bullet whose step survives is kept, every kept bullet is the step of some bullet of the group, and none is dropped unless its step removes it |
| Sprites.AdvanceInOrder | invaders.py:228 | the bullets kept are, in group order and each once, the moved bullets whose step keeps them |
| Sprites.AdvancePlayerBulletsInPlay | invaders.py:81-84 | after the update no player bullet is off screen, and every bullet still partly on screen after its move is kept |
| Sprites.AdvanceEnemyBulletsInPlay | invaders.py:94-97 | after the update no enemy bullet is below the screen, and every bullet not wholly below it is kept |
| Formation.MinLeft | invaders.py:204 | the smallest left edge: no enemy is further left, and some enemy has it |
| Formation.MaxRight | invaders.py:205 | the largest right edge: no enemy is further right, and some enemy has it |
| Formation.March | invaders.py:203-216 | at the edge it is moving towards, the formation reverses and drops 20; otherwise every enemy moves `direction × step` and the direction stays |
| Formation.MarchIsRigid | invaders.py:206-216 | the offset between any two enemies is the same before and after a march of the model's integer step (see Left out for fractional speeds) |
| Formation.EdgesOfTranslate | invaders.py:204-205 | shifting the formation shifts its leftmost and rightmost edges by the same amount |
| Formation.NoDoubleBounce | invaders.py:206-213 | a formation narrower than the screen never bounces on two frames in a row |
| Formation.LowestInColumn | invaders.py:220-222 | any enemy found is in the searched part of the group |
| Formation.LowestInColumnFound | invaders.py:220-222 | the enemy found is in the column, no enemy of the column is lower, none before it is level with it, and none is found only for an empty column |
| Formation.LowestInColumnIsLowest | invaders.py:221-223 | enemy k is its column's `max` if and only if no enemy of the column is lower and none earlier in group order is level with it |
| Formation.Shooters | invaders.py:218-223 | the firing enemies are listed in increasing group order; an enemy is listed exactly when its draw hits and it is lowest in its column |
| Formation.OneShooterPerColumn | invaders.py:218-223 | two enemies of one column never both fire in a frame |
| Formation.EnemyShot | invaders.py:224 | the enemy bullet is 6 by 12, centred ten pixels below the enemy's bottom edge, with the given speed |
| Formation.Fire | invaders.py:218-226 | each new bullet comes from a firing enemy, each firing enemy yields its bullet, and there are at most as many bullets as enemies |
| Formation.FireInOrder | invaders.py:218-226 | there are exactly as many bullets as shooters, and the `n`-th bullet is the shot of the `n`-th firing enemy in group order |
| Collisions.RemoveOverlapping | invaders.py:233 | exactly the bullets not overlapping the target survive, as an ordered sub-list of the group; nothing is removed exactly when nothing overlaps |
| Collisions.RemoveOverlappingInOrder | invaders.py:233 | the survivors are, in group order and each once, the bullets that miss the target |
| Collisions.ShootEnemies | invaders.py:230 | survivors and kills add up to the wave; each kill consumes a bullet; the bullets left are an ordered sub-list of the group that overlap no enemy of the wave, and every bullet overlapping no enemy is left; enemies overlapping no bullet survive |
| Collisions.ShootEnemiesKills | invaders.py:230 | the survivors are the wave in group order less exactly the enemies that some bullet overlaps which no earlier enemy of the group overlaps |
| Collisions.Points | invaders.py:231 | the score gained is a multiple of ten, and positive exactly when something was destroyed |
| Collisions.FirstOverlap | invaders.py:237 | the block found is the first in group order that the bullet overlaps; none is found exactly when it overlaps no block |
| Collisions.HitAt | invaders.py:107-113 | the block hit loses one health and keeps its place, or leaves the group; the others are untouched; the footprint never grows and total health drops by one |
| Collisions.ShootBarriers | invaders.py:236-240 | surviving bullets keep group order and overlap no remaining block; bullets clear of every block survive; a block that no bullet overlaps is left as it was; each destroyed bullet costs the barriers one unit of health |
| Setup.NewPlayer | invaders.py:123 | the new player is 40 by 40, centred horizontally, 30 pixels above the bottom, on screen, ready to fire |
| Setup.EnemyWave | invaders.py:127-135 | the wave holds `rows × cols` enemies |
| Setup.EnemyWaveSlots | invaders.py:127-135 | enemy k of the wave sits in row `k / cols` and column `k % cols` |
| Setup.StandardWave | invaders.py:127-137 | the start wave is 50 enemies, 40 by 28, at x = 100 + 60·col and y = 50 + 40·row |
| Setup.StandardWaveOnScreen | invaders.py:127-137 | the start wave lies inside the screen and above the player |
| Setup.BrickColumn | invaders.py:145-149 | a column of bricks has three blocks, or two at the outer columns |
| Setup.BrickColumnShape | invaders.py:145-149 | a column holds one full-health block per brick of the pattern and nothing else |
| Setup.ClusterFrom | invaders.py:144-149 | the columns from `col` on hold three blocks each, less the missing corners |
| Setup.ClusterFromShape | invaders.py:144-149 | those columns hold one full-health block per brick and nothing else |
| Setup.Cluster | invaders.py:144-149 | a cluster has 19 blocks |
| Setup.Clusters | invaders.py:143-150 | the clusters hold 19 blocks per centre |
| Setup.ClustersShape | invaders.py:140-150 | every block is a full-health brick of the pattern around one of the centres, and every such brick has its block |
| Setup.Barriers | invaders.py:140-150 | the barriers are 57 blocks |
| Setup.BarriersShape | invaders.py:140-150 | every barrier block is a full-health brick around x = 200, 400 or 600, and every such brick is present |
| Setup.BricksDisjoint | invaders.py:141-148 | bricks at different positions never overlap |
| Setup.BarriersDisjoint | invaders.py:140-150 | no two barrier blocks at different places overlap |
| Game.NextChance | invaders.py:165 | the chance rises by exactly 0.0008 while that stays within 0.01 and is 0.01 otherwise; it never exceeds the cap and never falls |
| Game.AdvanceLevel | invaders.py:161-165 | level +1, speed +0.4, raised chance (lines 161-165), a full wave added, barriers rebuilt, player recentred (lines 247-253); bullets, score, direction and flag kept |
| Game.EnemyTurnEffect | invaders.py:203-226 | the formation moves rigidly and turns exactly when it was at the edge it was heading for; the enemy bullets already flying stay first, followed by one shot per enemy that fires from the moved formation, in group order; nothing else changes |
| Game.Collide | invaders.py:230-245 | enemies and bullets only disappear; player bullets left overlap no enemy of the frame; the score rises by ten per destroyed enemy; the game ends exactly when an enemy bullet hits the player or a survivor reaches the player's line; surviving bullets overlap no remaining block; order and health loss are stated by `CollideOrderAndDamage` |
| Game.CollideKeeps | invaders.py:230-240 | a player bullet overlapping no enemy and no block survives, an enemy bullet overlapping neither the player nor a block survives, and a block no bullet overlaps is kept as it was |
| Game.CollideOrderAndDamage | invaders.py:230-240 | both bullet groups keep their order; while every block is standing, the barriers lose exactly one point of health per bullet a block stopped (lines 107-110, 236-240), so a block at health 3 hit once stays at 2 |
| Game.CollideKills | invaders.py:230 | the enemies left are the frame's enemies in group order less exactly those that some player bullet overlaps which no earlier enemy overlaps |
| Game.RestartGame | invaders.py:182-197 | a restart gives the fresh game with the fire chance kept: score 0, level 1, the start wave, new barriers, the player at its start, no bullets (see `Fresh`, and `Rules.RestartRebuilds` for a whole frame's presses) |
| Game.HandleEvent | invaders.py:172-197 | while playing, a press never ends the game, keeps score, level and formation, and adds at most one player bullet; while over, space does nothing and `r` restarts at score 0 and level 1 with the chance kept |
| Game.HandleEvents | invaders.py:172-197 | presses never end a game and, while playing, keep score, level and formation; while over, space presses change nothing (exact effects: `Rules.EventsWhilePlaying`, `Rules.RestartRebuilds`) |
| Game.Simulate | invaders.py:199-253 | the score never falls, the level rises by at most one, and the formation is never empty afterwards (the invariant: `Rules.SimulateKeepsValid`; the score: `Rules.SimulateScore`) |
| Game.Tick | invaders.py:168-253 | a frame of play never lowers the score and raises the level by at most one; with the game over and only space pressed the frame changes nothing (the invariant: `Rules.TickKeepsValid`; the score: `Rules.ScoreCountsKills`; the level: `Rules.LevelProgress`; the game over: `Rules.FrozenWhileOver`) |
| Rules.UpdateKeepsPlayerBounded | invaders.py:52-53 | a player update keeps the player on screen at its size and height |
| Rules.FreshIsValid | invaders.py:182-197 | a restarted game satisfies the invariant |
| Rules.StartIsValid | invaders.py:122-159 | the game the program starts with satisfies the invariant, with fire chance 0.002 |
| Rules.EventsIgnoredWhileOver | invaders.py:180-182 | while the game is over, presses other than restart do nothing |
| Rules.FrozenWhileOver | invaders.py:199 | while the game is over and no restart is pressed, a frame changes nothing |
| Rules.EventsWhilePlaying | invaders.py:180-181 | while playing, a frame's presses fire exactly one bullet if the cooldown is zero and space was pressed, and otherwise change nothing |
| Rules.EventsKeep | invaders.py:172-197 | while playing, presses touch only the player's cooldown and bullets, adding at most one bullet |
| Rules.RestartThenEvents | invaders.py:182-197 | after a restart, the rest of the frame's presses leave the rebuilt game apart from at most one shot |
| Rules.RestartRebuilds | invaders.py:182-197 | a restart while over gives score 0, level 1, the start wave, new barriers, the player at its start, no enemy bullets, at most one player bullet, and the fire chance kept |
| Rules.EarlyStagesBounded | invaders.py:199-226 | moving the player and the formation's turn keep the player, direction and counters in range |
| Rules.UpdateSpritesSteady | invaders.py:228 | after the sprite update the player is still in range and every bullet is in play |
| Rules.UpdatedBounded | invaders.py:228 | the sprite update keeps the player and counters in range |
| Rules.UpdatedBulletsInPlay | invaders.py:228 | after the sprite update no bullet is off screen in the direction it leaves by |
| Rules.CollideSteady | invaders.py:230-245 | the collision passes keep the invariant without the non-empty formation |
| Rules.AdvanceLevelValid | invaders.py:247-253 | a level advance restores the full invariant |
| Rules.TickKeepsValid | invaders.py:168-253 | every frame keeps the invariant: player on screen, cooldown at most 12, unit direction, chance at most 0.01, level at least 1, score a multiple of ten, blocks standing, bullets in play, enemies present |
| Rules.ValidAfterEvents | invaders.py:172-197 | the key presses keep the invariant |
| Rules.SimulateKeepsValid | invaders.py:199-253 | the simulation part of a frame keeps the invariant |
| Rules.SimulateScore | invaders.py:230-253 | the simulation scores ten points per enemy it destroys; after a wave clear that is every enemy the frame began with |
| Rules.ScoreCountsKills | invaders.py:231 | a frame of play scores exactly ten points per enemy destroyed |
| Rules.ScoreNeverDecreases | invaders.py:231 | without a restart, a frame never lowers the score |
| Rules.ChanceAfterLevels | invaders.py:165 | after n advances the chance is `min(0.01, c + 0.0008·n)` |
| Rules.ChanceCapsAtTenthAdvance | invaders.py:161-165 | from the initial 0.002 the chance reaches 0.01 exactly from the tenth advance on |
| Rules.LevelProgress | invaders.py:247-253 | a frame of play never ends with no enemies; the level rises by at most one; a rise brings 50 enemies, new barriers, the player recentred, speed +0.4 and the raised chance; otherwise speed and chance stay |

## Left out

- Rendering, fonts, images, the clock and frame rate, and the quit event
  and `q` key (lines 20-32, 169, 173-179, 255 on) are not modelled. They do
  not affect the simulation state.
- The keys are polled twice per frame, once at line 200 and once inside
  `all_sprites.update()`. The model assumes both polls see the same keys.
- `random.random()` is a parameter. Each draw is given as
  `floor(random() * 10000)` in the frame's `Input`.
- Game.EnemyTurn: the formation moves `direction × floor(speed)` pixels. At
  fractional speeds pygame truncates the float sum `x + direction × speed`
  toward zero. While that sum is non-negative an enemy therefore moves
  `floor(speed)` pixels right and `ceil(speed)` pixels left. Where the sum is
  negative it moves one pixel less to the left, or one more to the right
  (from x = 1 at speed 2.2 it lands on −1, a move of 2, while its neighbours
  move 3). The model uses `floor(speed)` for every enemy in both directions.
  The float rounding of the repeated `+= 0.4` is not modelled either: after
  five advances the speed is 2.9999999999999996, so the source moves 3
  pixels right from x >= 2, the same as the model's step of 3.
- Formation.MarchIsRigid: rigidity holds for the model's integer step only.
  At fractional speeds the source formation loses it near the left edge: a
  level-4 wave (speed 2.2) that bounces at the right edge marches left
  3 pixels a frame until its leftmost column reaches x = 1, and the next
  step moves that column 2 pixels and the others 3.
- Game.EnemyTurnEffect: its rigidity clause holds for the model's integer
  step only, as for `Formation.MarchIsRigid`.
- Game.EnemyTurn: the enemy bullet speed `4 + level × 0.3` is taken as
  `4 + floor(3 × level / 10)`. That is what truncation gives for a bullet at
  a non-negative height, but floating-point rounding of `level × 0.3` is not
  modelled.
- The fire chance is exact decimal arithmetic in units of 1/10000.
  Floating-point rounding of `0.002 + 0.0008·n` is not modelled.
- Rectangle coordinates are unbounded integers. pygame's 32-bit `Rect`
  fields cannot overflow in a game's lifetime.
- `Sprite.update` of enemies and blocks does nothing and is not modelled.
- Collisions.ShootBarriers: the contract does not say which block a
  destroyed bullet damages. That it is the first block in group order that
  the bullet overlaps is stated for one bullet by `FirstOverlap`; for the
  whole pass the contract states only that blocks no bullet overlaps are
  left as they were and that health falls by one per destroyed bullet.
- Collisions.ShootEnemies: the bullets left are stated as an ordered
  sub-list of the group holding exactly the bullets that overlap no enemy.
  That every copy of two identical bullets is kept is not stated.
- `BarrierBlock.hit` recolours the block (lines 112-113). Colour is
  rendering and is not modelled.

=== FILE: collisions.dfy ===
/** The three collision passes of a frame: enemies against player bullets,
    the player against enemy bullets, and every bullet against the barriers.
    Each pass walks its groups in group order and removes sprites as it goes,
    so a sprite removed early is not seen by later tests. */
module Collisions {
  import opened Wrappers
  import opened Geometry
  import opened Sprites
  import opened Seqs

  const PointsPerEnemy: nat := 10

  /** Each bullet of the group, unless it overlaps `target`. */
  function Clear(bs: seq<Bullet>, target: Rect): (r: seq<Option<Bullet>>)
    ensures |r| == |bs|
    ensures forall i :: 0 <= i < |bs| ==> (r[i].Some? <==> !Overlaps(bs[i].rect, target))
    ensures forall i :: 0 <= i < |bs| && r[i].Some? ==> r[i].value == bs[i]
  {
    seq(|bs|, i requires 0 <= i < |bs| => if Overlaps(bs[i].rect, target) then None else Some(bs[i]))
  }

  /** `spritecollide(target, bullets, True)`: the bullets not overlapping
      `target`, in their order. */
  function RemoveOverlapping(bs: seq<Bullet>, target: Rect): (r: seq<Bullet>)
    ensures SubSeq(r, bs)
    ensures forall b :: b in r ==> b in bs && !Overlaps(b.rect, target)
    ensures forall b :: b in bs && !Overlaps(b.rect, target) ==> b in r
    ensures |r| <= |bs|
    ensures |r| == |bs| <==> forall b :: b in bs ==> !Overlaps(b.rect, target)
    decreases |bs|
  {
    if |bs| == 0 then []
    else
      var rest := RemoveOverlapping(bs[1..], target);
      assert forall b :: b in bs ==> b == bs[0] || b in bs[1..];
      if Overlaps(bs[0].rect, target) then rest
      else
        assert ([bs[0]] + rest)[1..] == rest;
        [bs[0]] + rest
  }

  /** The bullets kept are exactly those of the group that miss `target`, in
      group order. */
  lemma {:induction false} RemoveOverlappingInOrder(bs: seq<Bullet>, target: Rect)
    ensures RemoveOverlapping(bs, target) == Somes(Clear(bs, target), 0)
    decreases |bs|
  {
    if |bs| > 0 {
      RemoveOverlappingInOrder(bs[1..], target);
      assert Clear(bs, target)[1..] == Clear(bs[1..], target);
      SomesCons(Clear(bs, target));
    }
  }

  /** No enemy before position `i` overlaps `b`, so `b` is still in play when
      the pass reaches the enemy at `i`. */
  predicate Reaches(es: seq<Enemy>, b: Bullet, i: nat)
    requires i <= |es|
  {
    forall j :: 0 <= j < i ==> !Overlaps(b.rect, es[j].rect)
  }

  /** The enemy at `i` is destroyed: some bullet still in play when the pass
      reaches it overlaps it. */
  predicate Killed(es: seq<Enemy>, bs: seq<Bullet>, i: nat)
    requires i < |es|
  {
    exists b :: b in bs && Overlaps(b.rect, es[i].rect) && Reaches(es, b, i)
  }

  /** Each enemy of the formation, unless it is destroyed. */
  function Standing(es: seq<Enemy>, bs: seq<Bullet>): (r: seq<Option<Enemy>>)
    ensures |r| == |es|
    ensures forall i :: 0 <= i < |es| ==> (r[i].Some? <==> !Killed(es, bs, i))
    ensures forall i :: 0 <= i < |es| && r[i].Some? ==> r[i].value == es[i]
  {
    seq(|es|, i requires 0 <= i < |es| => if Killed(es, bs, i) then None else Some(es[i]))
  }

  /** Removing the bullets that overlap the first enemy leaves the fate of the
      enemies after it unchanged. */
  lemma StandingAfterFirst(es: seq<Enemy>, bs: seq<Bullet>)
    requires |es| > 0
    ensures Standing(es, bs)[1..] == Standing(es[1..], RemoveOverlapping(bs, es[0].rect))
  {
    var left := RemoveOverlapping(bs, es[0].rect);
    forall i | 0 <= i < |es| - 1
      ensures Killed(es, bs, i + 1) <==> Killed(es[1..], left, i)
    {
      if Killed(es, bs, i + 1) {
        var b :| b in bs && Overlaps(b.rect, es[i + 1].rect) && Reaches(es, b, i + 1);
        assert !Overlaps(b.rect, es[0].rect);
        assert Reaches(es[1..], b, i);
      }
      if Killed(es[1..], left, i) {
        var b :| b in left && Overlaps(b.rect, es[1..][i].rect) && Reaches(es[1..], b, i);
        assert forall j :: 1 <= j < i + 1 ==> es[j] == es[1..][j - 1];
        assert Reaches(es, b, i + 1);
      }
    }
  }

  /** The first enemy falls exactly when some bullet overlaps it, and the
      enemies after it then meet the bullets it left. */
  lemma KillsAfterFirst(es: seq<Enemy>, bs: seq<Bullet>)
    requires |es| > 0
    ensures var left := RemoveOverlapping(bs, es[0].rect);
      Somes(Standing(es, bs), 0) ==
        (if |left| < |bs| then [] else [es[0]]) + Somes(Standing(es[1..], left), 0)
  {
    var left := RemoveOverlapping(bs, es[0].rect);
    assert Killed(es, bs, 0) <==> |left| < |bs| by {
      if |left| < |bs| {
        var b :| b in bs && Overlaps(b.rect, es[0].rect);
        assert Reaches(es, b, 0);
      }
    }
    StandingAfterFirst(es, bs);
    SomesCons(Standing(es, bs));
  }

  /** The outcome of `groupcollide(enemies, player_bullets, True, True)`. */
  datatype EnemyHits = EnemyHits(survivors: seq<Enemy>, bullets: seq<Bullet>, kills: nat)

  /** Each enemy in turn takes every remaining bullet that overlaps it, and is
      destroyed when it took at least one. */
  function ShootEnemies(es: seq<Enemy>, bs: seq<Bullet>): (r: EnemyHits)
    ensures |r.survivors| + r.kills == |es|
    ensures r.kills <= |bs| - |r.bullets|
    ensures forall e :: e in r.survivors ==> e in es
    ensures forall b :: b in r.bullets ==> b in bs
    ensures forall e :: e in es && (forall b :: b in bs ==> !Overlaps(b.rect, e.rect)) ==> e in r.survivors
    ensures forall b :: b in bs && (forall e :: e in es ==> !Overlaps(b.rect, e.rect)) ==> b in r.bullets
    ensures forall b, e :: b in r.bullets && e in es ==> !Overlaps(b.rect, e.rect)
    ensures SubSeq(r.bullets, bs)
    decreases |es|
  {
    if |es| == 0 then
      SubSeqReflexive(bs);
      EnemyHits([], bs, 0)
    else
      var left := RemoveOverlapping(bs, es[0].rect);
      var rest := ShootEnemies(es[1..], left);
      SubSeqTransitive(rest.bullets, left, bs);
      BulletsAfterFirst(es, bs, left, rest.bullets);
      SurvivorsAfterFirstEnemy(es, bs, left, rest.survivors);
      if |left| < |bs| then rest.(kills := rest.kills + 1)
      else rest.(survivors := [es[0]] + rest.survivors)
  }

  /** The bullets the rest of the formation leaves, out of those the first
      enemy left, are the bullets the whole formation leaves. */
  lemma BulletsAfterFirst(es: seq<Enemy>, bs: seq<Bullet>, left: seq<Bullet>, after: seq<Bullet>)
    requires |es| > 0
    requires forall b :: b in left ==> b in bs && !Overlaps(b.rect, es[0].rect)
    requires forall b :: b in bs && !Overlaps(b.rect, es[0].rect) ==> b in left
    requires forall b :: b in after ==> b in left
    requires forall b, e :: b in after && e in es[1..] ==> !Overlaps(b.rect, e.rect)
    requires forall b :: b in left && (forall e :: e in es[1..] ==> !Overlaps(b.rect, e.rect)) ==> b in after
    ensures forall b :: b in after ==> b in bs
    ensures forall b, e :: b in after && e in es ==> !Overlaps(b.rect, e.rect)
    ensures forall b :: b in bs && (forall e :: e in es ==> !Overlaps(b.rect, e.rect)) ==> b in after
  {
    assert forall e :: e in es ==> e == es[0] || e in es[1..];
    forall b | b in bs && (forall e :: e in es ==> !Overlaps(b.rect, e.rect))
      ensures b in after
    {
      assert b in left;
      assert forall e :: e in es[1..] ==> e in es;
    }
  }

  /** The enemies the rest of the formation keeps, with the first enemy in
      front when nothing overlapped it, are what the whole formation keeps. */
  lemma SurvivorsAfterFirstEnemy(es: seq<Enemy>, bs: seq<Bullet>, left: seq<Bullet>, kept: seq<Enemy>)
    requires |es| > 0
    requires |left| < |bs| <==> exists b :: b in bs && Overlaps(b.rect, es[0].rect)
    requires forall b :: b in left ==> b in bs
    requires forall e :: e in kept ==> e in es[1..]
    requires forall e :: e in es[1..] && (forall b :: b in left ==> !Overlaps(b.rect, e.rect)) ==> e in kept
    ensures var all := if |left| < |bs| then kept else [es[0]] + kept;
      && (forall e :: e in all ==> e in es)
      && (forall e :: e in es && (forall b :: b in bs ==> !Overlaps(b.rect, e.rect)) ==> e in all)
  {
    assert forall e :: e in es ==> e == es[0] || e in es[1..];
  }

  /** Group order is kept, and the enemy at `i` is destroyed exactly when a
      bullet that no earlier enemy took overlaps it: an enemy takes every
      bullet still in play that overlaps it. */
  lemma {:induction false} ShootEnemiesKills(es: seq<Enemy>, bs: seq<Bullet>)
    ensures ShootEnemies(es, bs).survivors == Somes(Standing(es, bs), 0)
    decreases |es|
  {
    if |es| > 0 {
      ShootEnemiesKills(es[1..], RemoveOverlapping(bs, es[0].rect));
      KillsAfterFirst(es, bs);
    }
  }

  /** Score gained from a collision pass: ten points per destroyed enemy. */
  function Points(hits: EnemyHits): (p: nat)
    ensures p % PointsPerEnemy == 0
    ensures p > 0 <==> hits.kills > 0
  {
    PointsPerEnemy * hits.kills
  }

  /** `spritecollideany(b, barriers)`: the first block in group order that the
      rectangle overlaps. */
  function FirstOverlap(blocks: seq<Block>, target: Rect): (r: Option<nat>)
    ensures r.Some? ==> r.value < |blocks| && Overlaps(target, blocks[r.value].rect)
    ensures r.Some? ==> forall j :: 0 <= j < r.value ==> !Overlaps(target, blocks[j].rect)
    ensures r.None? <==> forall j :: 0 <= j < |blocks| ==> !Overlaps(target, blocks[j].rect)
    decreases |blocks|
  {
    if |blocks| == 0 then None
    else if Overlaps(target, blocks[0].rect) then Some(0)
    else
      var rest := FirstOverlap(blocks[1..], target);
      assert forall j :: 1 <= j < |blocks| ==> blocks[j] == blocks[1..][j - 1];
      match rest
      case None => None
      case Some(k) => Some(k + 1)
  }

  /** Total health left in the barriers. */
  function HealthSum(blocks: seq<Block>): int
    decreases |blocks|
  {
    if |blocks| == 0 then 0 else blocks[0].health + HealthSum(blocks[1..])
  }

  /** Every block still standing has positive health. */
  predicate AllStanding(blocks: seq<Block>) {
    forall b :: b in blocks ==> b.health >= 1
  }

  /** The rectangles the barriers occupy. */
  function Footprint(blocks: seq<Block>): set<Rect> {
    set b | b in blocks :: b.rect
  }

  lemma {:induction false} HealthSumAppend(a: seq<Block>, b: seq<Block>)
    ensures HealthSum(a + b) == HealthSum(a) + HealthSum(b)
    decreases |a|
  {
    if |a| == 0 {
      assert a + b == b;
    } else {
      assert (a + b)[1..] == a[1..] + b;
      HealthSumAppend(a[1..], b);
    }
  }

  lemma HealthSumSplit(blocks: seq<Block>, k: nat)
    requires k < |blocks|
    ensures HealthSum(blocks) == HealthSum(blocks[..k]) + blocks[k].health + HealthSum(blocks[k + 1..])
  {
    assert blocks == blocks[..k] + [blocks[k]] + blocks[k + 1..];
    HealthSumAppend(blocks[..k] + [blocks[k]], blocks[k + 1..]);
    HealthSumAppend(blocks[..k], [blocks[k]]);
  }

  /** `block_hit.hit()` on the block at `k`: it loses one health, and leaves
      the group when none is left. */
  function HitAt(blocks: seq<Block>, k: nat): (r: seq<Block>)
    requires k < |blocks|
    ensures blocks[k].health - 1 <= 0 ==> r == blocks[..k] + blocks[k + 1..]
    ensures blocks[k].health - 1 > 0 ==>
              |r| == |blocks| && r[k] == blocks[k].(health := blocks[k].health - 1) &&
              forall j :: 0 <= j < |blocks| && j != k ==> r[j] == blocks[j]
    ensures Footprint(r) <= Footprint(blocks)
    ensures forall b :: b in blocks && b != blocks[k] ==> b in r
    ensures AllStanding(blocks) ==> AllStanding(r) && HealthSum(r) == HealthSum(blocks) - 1
  {
    HealthSumSplit(blocks, k);
    match Hit(blocks[k])
    case None =>
      var r := blocks[..k] + blocks[k + 1..];
      HealthSumAppend(blocks[..k], blocks[k + 1..]);
      assert forall b :: b in r ==> b in blocks;
      assert forall j :: 0 <= j < k ==> r[j] == blocks[j];
      assert forall j :: k < j < |blocks| ==> r[j - 1] == blocks[j];
      r
    case Some(hurt) =>
      var r := blocks[k := hurt];
      assert r == blocks[..k] + [hurt] + blocks[k + 1..];
      HealthSumAppend(blocks[..k] + [hurt], blocks[k + 1..]);
      HealthSumAppend(blocks[..k], [hurt]);
      assert forall b :: b in r ==> b in blocks || b == hurt;
      r
  }

  /** The barrier pass over one bullet group: each bullet in turn that
      overlaps a block is destroyed and damages the first such block. */
  function ShootBarriers(bs: seq<Bullet>, blocks: seq<Block>): (r: (seq<Bullet>, seq<Block>))
    ensures forall b :: b in r.0 ==> b in bs
    ensures forall b, rect :: b in r.0 && rect in Footprint(r.1) ==> !Overlaps(b.rect, rect)
    ensures forall b :: b in bs && (forall rect :: rect in Footprint(blocks) ==> !Overlaps(b.rect, rect)) ==> b in r.0
    ensures |r.0| <= |bs| && |r.1| <= |blocks|
    ensures Footprint(r.1) <= Footprint(blocks)
    ensures AllStanding(blocks) ==>
              AllStanding(r.1) && HealthSum(r.1) == HealthSum(blocks) - (|bs| - |r.0|)
    ensures SubSeq(r.0, bs)
    ensures forall blk :: blk in blocks && (forall b :: b in bs ==> !Overlaps(b.rect, blk.rect)) ==> blk in r.1
    decreases |bs|
  {
    if |bs| == 0 then ([], blocks)
    else
      assert forall b :: b in bs ==> b == bs[0] || b in bs[1..];
      match FirstOverlap(blocks, bs[0].rect)
      case None =>
        var rest := ShootBarriers(bs[1..], blocks);
        assert forall rect :: rect in Footprint(blocks) ==> !Overlaps(bs[0].rect, rect);
        assert ([bs[0]] + rest.0)[1..] == rest.0;
        ([bs[0]] + rest.0, rest.1)
      case Some(k) =>
        var rest := ShootBarriers(bs[1..], HitAt(blocks, k));
        rest
  }
}

=== FILE: formation.dfy ===
/** The enemy formation: the lock-step march with its bounce and drop at the
    screen edges, and the rule that only the lowest enemy of a column fires. */
module Formation {
  import opened Wrappers
  import opened Geometry
  import opened Sprites

  const Drop: int := 20
  /** Two enemies share a column when their centres are less than this apart. */
  const ColumnTolerance: int := 4
  const EnemyShotWidth: nat := 6
  const EnemyShotHeight: nat := 12

  /** The smallest left edge in the formation. */
  function MinLeft(es: seq<Enemy>): (m: int)
    requires |es| > 0
    ensures forall i :: 0 <= i < |es| ==> m <= es[i].rect.Left()
    ensures exists i :: 0 <= i < |es| && m == es[i].rect.Left()
    decreases |es|
  {
    if |es| == 1 then es[0].rect.Left()
    else
      var rest := MinLeft(es[1..]);
      assert forall i :: 1 <= i < |es| ==> es[i] == es[1..][i - 1];
      if es[0].rect.Left() <= rest then es[0].rect.Left() else rest
  }

  /** The largest right edge in the formation. */
  function MaxRight(es: seq<Enemy>): (m: int)
    requires |es| > 0
    ensures forall i :: 0 <= i < |es| ==> es[i].rect.Right() <= m
    ensures exists i :: 0 <= i < |es| && m == es[i].rect.Right()
    decreases |es|
  {
    if |es| == 1 then es[0].rect.Right()
    else
      var rest := MaxRight(es[1..]);
      assert forall i :: 1 <= i < |es| ==> es[i] == es[1..][i - 1];
      if es[0].rect.Right() >= rest then es[0].rect.Right() else rest
  }

  /** Moving left with some enemy at or past the left edge. */
  predicate AtLeftEdge(es: seq<Enemy>, direction: int)
    requires |es| > 0
  {
    MinLeft(es) <= 0 && direction < 0
  }

  /** Moving right with some enemy at or past the right edge. */
  predicate AtRightEdge(es: seq<Enemy>, direction: int)
    requires |es| > 0
  {
    MaxRight(es) >= Width && direction > 0
  }

  /** Every enemy moved by the same offset. */
  function Translate(es: seq<Enemy>, dx: int, dy: int): (r: seq<Enemy>)
    ensures |r| == |es|
    ensures forall i :: 0 <= i < |es| ==> r[i].rect == es[i].rect.Shift(dx, dy)
  {
    seq(|es|, i requires 0 <= i < |es| => Enemy(es[i].rect.Shift(dx, dy)))
  }

  /** One frame of the march of a non-empty formation moving `direction` at
      `step` pixels a frame. Returns the moved formation and the new direction. */
  function March(es: seq<Enemy>, direction: int, step: int): (r: (seq<Enemy>, int))
    requires |es| > 0
    ensures |r.0| == |es|
    ensures AtLeftEdge(es, direction) ==> r.1 == 1
    ensures AtRightEdge(es, direction) ==> r.1 == -1
    ensures AtLeftEdge(es, direction) || AtRightEdge(es, direction) ==>
              forall i :: 0 <= i < |es| ==>
                r.0[i].rect.x == es[i].rect.x && r.0[i].rect.y == es[i].rect.y + Drop
    ensures !AtLeftEdge(es, direction) && !AtRightEdge(es, direction) ==>
              && r.1 == direction
              && forall i :: 0 <= i < |es| ==>
                   r.0[i].rect.x == es[i].rect.x + direction * step && r.0[i].rect.y == es[i].rect.y
    ensures forall i :: 0 <= i < |es| ==> r.0[i].rect.w == es[i].rect.w && r.0[i].rect.h == es[i].rect.h
  {
    if AtLeftEdge(es, direction) then (Translate(es, 0, Drop), 1)
    else if AtRightEdge(es, direction) then (Translate(es, 0, Drop), -1)
    else (Translate(es, direction * step, 0), direction)
  }

  /** The march keeps the formation rigid: the offset between any two
      enemies is the same before and after. */
  lemma MarchIsRigid(es: seq<Enemy>, direction: int, step: int)
    requires |es| > 0
    ensures var r := March(es, direction, step).0;
            forall i, j :: 0 <= i < |es| && 0 <= j < |es| ==>
              && r[i].rect.x - r[j].rect.x == es[i].rect.x - es[j].rect.x
              && r[i].rect.y - r[j].rect.y == es[i].rect.y - es[j].rect.y
  {
  }

  /** Shifting the formation shifts its extreme edges by the same amount. */
  lemma {:induction false} EdgesOfTranslate(es: seq<Enemy>, dx: int, dy: int)
    requires |es| > 0
    ensures MinLeft(Translate(es, dx, dy)) == MinLeft(es) + dx
    ensures MaxRight(Translate(es, dx, dy)) == MaxRight(es) + dx
  {
    var t := Translate(es, dx, dy);
    var i :| 0 <= i < |es| && MinLeft(es) == es[i].rect.Left();
    var j :| 0 <= j < |t| && MinLeft(t) == t[j].rect.Left();
    assert MinLeft(t) <= t[i].rect.Left();
    assert MinLeft(es) <= es[j].rect.Left();
    var k :| 0 <= k < |es| && MaxRight(es) == es[k].rect.Right();
    var l :| 0 <= l < |t| && MaxRight(t) == t[l].rect.Right();
    assert t[k].rect.Right() <= MaxRight(t);
    assert es[l].rect.Right() <= MaxRight(es);
  }

  /** A formation narrower than the screen never bounces twice in a row: the
      frame after a bounce moves it away from the edge it touched. */
  lemma NoDoubleBounce(es: seq<Enemy>, direction: int, step: int)
    requires |es| > 0
    requires MaxRight(es) - MinLeft(es) < Width
    requires AtLeftEdge(es, direction) || AtRightEdge(es, direction)
    ensures var (moved, turned) := March(es, direction, step);
            !AtLeftEdge(moved, turned) && !AtRightEdge(moved, turned)
  {
    EdgesOfTranslate(es, 0, Drop);
  }

  /** Two enemies belong to one column when their horizontal centres are
      less than `ColumnTolerance` apart. */
  predicate SameColumn(a: Enemy, b: Enemy) {
    -ColumnTolerance < a.rect.CenterX() - b.rect.CenterX() < ColumnTolerance
  }

  /** Python's `max(same_column, key=centery)` restricted to `es[from..]`:
      the first enemy of greatest vertical centre among those in the column
      of `e`, or `None` when that part of the column is empty. */
  function LowestInColumn(es: seq<Enemy>, e: Enemy, from: nat): (r: Option<nat>)
    requires from <= |es|
    ensures r.Some? ==> from <= r.value < |es|
    decreases |es| - from
  {
    if from == |es| then None
    else
      var rest := LowestInColumn(es, e, from + 1);
      if !SameColumn(es[from], e) then rest
      else if rest.Some? && es[rest.value].rect.CenterY() > es[from].rect.CenterY() then rest
      else Some(from)
  }

  /** The enemy found is in the column, no enemy of the column after `from`
      is lower, none before it is level with it, and nothing is found only
      when the column has no enemy after `from`. */
  lemma {:induction false} LowestInColumnFound(es: seq<Enemy>, e: Enemy, from: nat)
    requires from <= |es|
    ensures var r := LowestInColumn(es, e, from);
            && (r.Some? ==> SameColumn(es[r.value], e))
            && (r.Some? ==> forall j :: from <= j < |es| && SameColumn(es[j], e) ==>
                              es[j].rect.CenterY() <= es[r.value].rect.CenterY())
            && (r.Some? ==> forall j :: from <= j < r.value && SameColumn(es[j], e) ==>
                              es[j].rect.CenterY() < es[r.value].rect.CenterY())
            && (r.None? <==> forall j :: from <= j < |es| ==> !SameColumn(es[j], e))
    decreases |es| - from
  {
    if from < |es| {
      LowestInColumnFound(es, e, from + 1);
    }
  }

  /** Reference definition: enemy `k` is below every other enemy of its
      column, and ahead in group order of any enemy level with it. */
  predicate IsLowestInColumn(es: seq<Enemy>, k: nat)
    requires k < |es|
  {
    forall j :: 0 <= j < |es| && SameColumn(es[j], es[k]) ==>
      es[j].rect.CenterY() < es[k].rect.CenterY() ||
      (es[j].rect.CenterY() == es[k].rect.CenterY() && k <= j)
  }

  lemma LowestInColumnIsLowest(es: seq<Enemy>, k: nat)
    requires k < |es|
    ensures LowestInColumn(es, es[k], 0) == Some(k) <==> IsLowestInColumn(es, k)
  {
    var r := LowestInColumn(es, es[k], 0);
    LowestInColumnFound(es, es[k], 0);
    assert SameColumn(es[k], es[k]);
    assert r.Some?;
    if IsLowestInColumn(es, k) {
      assert es[r.value].rect.CenterY() <= es[k].rect.CenterY();
    }
  }

  /** The `random.random() < ENEMY_BULLET_CHANCE` test for the enemy at
      `k`: draws are in units of 1/10000, and a draw missing from the
      supplied sequence is a miss. */
  predicate DrawHits(draws: seq<nat>, chance: nat, k: nat) {
    k < |draws| && draws[k] < chance
  }

  /** Enemy `k` fires this frame: its draw hits and it is the lowest of its column. */
  predicate Fires(es: seq<Enemy>, draws: seq<nat>, chance: nat, k: nat)
    requires k < |es|
  {
    DrawHits(draws, chance, k) && LowestInColumn(es, es[k], 0) == Some(k)
  }

  /** The positions, in increasing order, of the enemies in `es[from..]` that fire. */
  function Shooters(es: seq<Enemy>, draws: seq<nat>, chance: nat, from: nat): (r: seq<nat>)
    requires from <= |es|
    ensures forall n :: 0 <= n < |r| ==> from <= r[n] < |es| && Fires(es, draws, chance, r[n])
    ensures forall n, m :: 0 <= n < m < |r| ==> r[n] < r[m]
    ensures forall k :: from <= k < |es| && Fires(es, draws, chance, k) ==> k in r
    decreases |es| - from
  {
    if from == |es| then []
    else
      var rest := Shooters(es, draws, chance, from + 1);
      if Fires(es, draws, chance, from) then [from] + rest else rest
  }

  /** No column ever has two shooters in one frame. */
  lemma OneShooterPerColumn(es: seq<Enemy>, draws: seq<nat>, chance: nat, i: nat, j: nat)
    requires i < |es| && j < |es|
    requires Fires(es, draws, chance, i) && Fires(es, draws, chance, j)
    requires SameColumn(es[i], es[j])
    ensures i == j
  {
    LowestInColumnIsLowest(es, i);
    LowestInColumnIsLowest(es, j);
    assert SameColumn(es[j], es[i]);
  }

  /** The bullet an enemy fires: centred ten pixels below its bottom edge. */
  function EnemyShot(e: Enemy, vy: int): (b: Bullet)
    ensures b.rect.CenterX() == e.rect.CenterX() && b.rect.CenterY() == e.rect.Bottom() + 10
    ensures b.rect.w == EnemyShotWidth && b.rect.h == EnemyShotHeight && b.vy == vy
  {
    Bullet(CenteredAt(e.rect.CenterX(), e.rect.Bottom() + 10, EnemyShotWidth, EnemyShotHeight), vy)
  }

  /** The enemy fire step: one bullet per firing enemy, in group order. */
  function Fire(es: seq<Enemy>, draws: seq<nat>, chance: nat, vy: int): (r: seq<Bullet>)
    ensures |r| <= |es|
    ensures forall n :: 0 <= n < |r| ==>
              exists k :: 0 <= k < |es| && Fires(es, draws, chance, k) && r[n] == EnemyShot(es[k], vy)
    ensures forall k :: 0 <= k < |es| && Fires(es, draws, chance, k) ==> EnemyShot(es[k], vy) in r
  {
    var ks := Shooters(es, draws, chance, 0);
    ShootersBounded(es, draws, chance, 0);
    var r := seq(|ks|, n requires 0 <= n < |ks| => EnemyShot(es[ks[n]], vy));
    assert forall n :: 0 <= n < |ks| ==> r[n] == EnemyShot(es[ks[n]], vy);
    assert forall k :: k in ks ==> EnemyShot(es[k], vy) in r by {
      forall k | k in ks
        ensures EnemyShot(es[k], vy) in r
      {
        var n :| 0 <= n < |ks| && ks[n] == k;
        assert r[n] == EnemyShot(es[k], vy);
      }
    }
    r
  }

  /** One bullet per shooter, in group order: the `n`-th bullet is fired by
      the `n`-th firing enemy of the group. */
  lemma FireInOrder(es: seq<Enemy>, draws: seq<nat>, chance: nat, vy: int)
    ensures var r := Fire(es, draws, chance, vy); var ks := Shooters(es, draws, chance, 0);
      |r| == |ks| && forall n :: 0 <= n < |r| ==> ks[n] < |es| && r[n] == EnemyShot(es[ks[n]], vy)
  {
  }

  /** Strictly increasing positions below `|es|` number at most `|es| - from`. */
  lemma {:induction false} ShootersBounded(es: seq<Enemy>, draws: seq<nat>, chance: nat, from: nat)
    requires from <= |es|
    ensures |Shooters(es, draws, chance, from)| <= |es| - from
    decreases |es| - from
  {
    if from < |es| {
      ShootersBounded(es, draws, chance, from + 1);
    }
  }
}

=== FILE: game.dfy ===
/** The game session: the state the main loop keeps between frames, the
    handling of the shoot and restart key presses, and one frame of the
    simulation in the loop's order. */
module Game {
  import opened Wrappers
  import opened Geometry
  import opened Sprites
  import opened Formation
  import opened Collisions
  import opened Setup
  import opened Seqs

  /** Enemy speed is kept in tenths of a pixel per frame. */
  const InitialSpeed: nat := 10
  const SpeedStep: nat := 4
  /** The per-enemy fire chance is kept in units of 1/10000. */
  const InitialChance: nat := 20
  const ChanceStep: nat := 8
  const ChanceCap: nat := 100

  datatype Session = Session(
    player: Player,
    enemies: seq<Enemy>,
    playerBullets: seq<Bullet>,
    enemyBullets: seq<Bullet>,
    barriers: seq<Block>,
    direction: int,
    speed: nat,
    chance: nat,
    score: nat,
    level: nat,
    gameOver: bool)

  /** Key presses handled from the event queue; quitting is not modelled. */
  datatype Event = Shoot | Restart

  /** What one frame reads from outside: the key presses of the event queue
      in order, the movement keys held, and the enemies' random draws in
      group order (each `floor(random() * 10000)`). */
  datatype Input = Input(events: seq<Event>, keys: Keys, draws: seq<nat>)

  /** Pixels the formation moves in a frame at `speed` tenths. */
  function MarchStep(speed: nat): nat {
    speed / 10
  }

  /** Pixels an enemy bullet fired at `level` falls per frame (`4 + level * 0.3`). */
  function EnemyShotSpeed(level: nat): nat {
    4 + (3 * level) / 10
  }

  /** A new game with the given fire chance: the state the program starts
      in and the state a restart rebuilds. */
  function Fresh(chance: nat): (s: Session)
    ensures s.score == 0 && s.level == 1 && !s.gameOver
    ensures s.direction == 1 && s.speed == InitialSpeed && s.chance == chance
    ensures s.player == NewPlayer() && s.playerBullets == [] && s.enemyBullets == []
    ensures s.enemies == EnemyWave(EnemyRows, EnemyCols) && s.barriers == Barriers()
  {
    Session(NewPlayer(), EnemyWave(EnemyRows, EnemyCols), [], [], Barriers(),
            1, InitialSpeed, chance, 0, 1, false)
  }

  /** The session when the program starts. */
  function Start(): Session {
    Fresh(InitialChance)
  }

  /** The restart key: everything is rebuilt except the fire chance, which
      keeps whatever the levels played so far raised it to. */
  function RestartGame(s: Session): (r: Session)
    ensures r == Fresh(s.chance)
  {
    Fresh(s.chance)
  }

  /** `min(0.01, chance + 0.0008)` in units of 1/10000. */
  function NextChance(chance: nat): (r: nat)
    ensures r <= ChanceCap
    ensures chance <= ChanceCap ==> chance <= r
    ensures r == chance + ChanceStep || r == ChanceCap
    ensures chance + ChanceStep <= ChanceCap ==> r == chance + ChanceStep
  {
    if ChanceCap <= chance + ChanceStep then ChanceCap else chance + ChanceStep
  }

  /** The fire chance after `levels` level advances starting from `chance`. */
  function ChanceAfter(levels: nat, chance: nat): nat
    decreases levels
  {
    if levels == 0 then chance else ChanceAfter(levels - 1, NextChance(chance))
  }

  /** `advance_level` and the wave-clear branch after it: harder level, a new
      wave added to the (empty) formation, barriers rebuilt, player
      recentred; direction, bullets, score and the game-over flag stay. */
  function AdvanceLevel(s: Session): (r: Session)
    ensures r.level == s.level + 1 && r.speed == s.speed + SpeedStep
    ensures r.chance == NextChance(s.chance)
    ensures r.enemies == s.enemies + EnemyWave(EnemyRows, EnemyCols) && r.barriers == Barriers()
    ensures r.player.rect.CenterX() == Width / 2 && r.player.rect.y == s.player.rect.y
    ensures r.player.rect.w == s.player.rect.w && r.player.rect.h == s.player.rect.h
    ensures r.player.cooldown == s.player.cooldown
    ensures r.direction == s.direction && r.score == s.score && r.gameOver == s.gameOver
    ensures r.playerBullets == s.playerBullets && r.enemyBullets == s.enemyBullets
  {
    var p := s.player;
    s.(level := s.level + 1,
       speed := s.speed + SpeedStep,
       chance := NextChance(s.chance),
       enemies := s.enemies + EnemyWave(EnemyRows, EnemyCols),
       barriers := Barriers(),
       player := p.(rect := p.rect.(x := Width / 2 - p.rect.w / 2)))
  }

  /** One key press from the event queue: space fires while the game is on,
      `r` restarts once it is over, and every other combination is ignored. */
  function HandleEvent(s: Session, ev: Event): (r: Session)
    ensures !s.gameOver ==>
              && !r.gameOver && r.score == s.score && r.level == s.level && r.enemies == s.enemies
              && |s.playerBullets| <= |r.playerBullets| <= |s.playerBullets| + 1
    ensures s.gameOver && ev == Shoot ==> r == s
    ensures s.gameOver && ev == Restart ==> !r.gameOver && r.score == 0 && r.level == 1 && r.chance == s.chance
  {
    match ev
    case Shoot =>
      if s.gameOver then s
      else
        var (p, shot) := Sprites.Shoot(s.player);
        s.(player := p, playerBullets := s.playerBullets + (if shot.Some? then [shot.value] else []))
    case Restart =>
      if s.gameOver then RestartGame(s) else s
  }

  /** The event loop at the top of a frame, in queue order. Presses never
      end a game, and while the game is over only a restart has any effect. */
  function HandleEvents(s: Session, evs: seq<Event>): (r: Session)
    ensures !s.gameOver ==>
              && !r.gameOver && r.score == s.score && r.level == s.level && r.enemies == s.enemies
              && |s.playerBullets| <= |r.playerBullets|
    ensures s.gameOver && (forall i :: 0 <= i < |evs| ==> evs[i] == Shoot) ==> r == s
    decreases |evs|
  {
    if |evs| == 0 then s else HandleEvents(HandleEvent(s, evs[0]), evs[1..])
  }

  /** The formation's turn, only when enemies remain: march, then fire. The
      ensures spell out the two stages for the whole-frame proofs; what the
      turn means is stated by `EnemyTurnEffect`. */
  function EnemyTurn(s: Session, draws: seq<nat>): (r: Session)
    ensures |r.enemies| == |s.enemies|
    ensures |s.enemies| > 0 ==>
              && (r.enemies, r.direction) == March(s.enemies, s.direction, MarchStep(s.speed))
              && r.enemyBullets == s.enemyBullets + Fire(r.enemies, draws, s.chance, EnemyShotSpeed(s.level))
    ensures |s.enemies| == 0 ==> r == s
    ensures r == s.(enemies := r.enemies, direction := r.direction, enemyBullets := r.enemyBullets)
    ensures s.direction == 1 || s.direction == -1 ==> r.direction == 1 || r.direction == -1
  {
    if |s.enemies| == 0 then s
    else
      var (es, dir) := March(s.enemies, s.direction, MarchStep(s.speed));
      s.(enemies := es, direction := dir,
         enemyBullets := s.enemyBullets + Fire(es, draws, s.chance, EnemyShotSpeed(s.level)))
  }

  /** What the formation's turn means: the formation moves rigidly, turns
      exactly when it was at the edge it was heading for, and the enemy
      bullets gain one shot per enemy that fires from the moved formation,
      appended in group order after the bullets already flying. Nothing else
      in the session changes. */
  lemma EnemyTurnEffect(s: Session, draws: seq<nat>)
    requires |s.enemies| > 0
    ensures var r := EnemyTurn(s, draws); var flying := s.enemyBullets; var vy := EnemyShotSpeed(s.level);
      && |r.enemies| == |s.enemies|
      && (forall i, j :: 0 <= i < |s.enemies| && 0 <= j < |s.enemies| ==>
            && r.enemies[i].rect.x - r.enemies[j].rect.x == s.enemies[i].rect.x - s.enemies[j].rect.x
            && r.enemies[i].rect.y - r.enemies[j].rect.y == s.enemies[i].rect.y - s.enemies[j].rect.y)
      && (r.direction != s.direction <==> AtLeftEdge(s.enemies, s.direction) || AtRightEdge(s.enemies, s.direction))
      && |flying| <= |r.enemyBullets| && r.enemyBullets[..|flying|] == flying
      && |r.enemyBullets| - |flying| == |Shooters(r.enemies, draws, s.chance, 0)|
      && (forall n :: 0 <= n < |r.enemyBullets| - |flying| ==>
            r.enemyBullets[|flying| + n] == EnemyShot(r.enemies[Shooters(r.enemies, draws, s.chance, 0)[n]], vy))
      && r.player == s.player && r.playerBullets == s.playerBullets && r.barriers == s.barriers
      && r.score == s.score && r.gameOver == s.gameOver && r.level == s.level
  {
    var r := EnemyTurn(s, draws);
    MarchIsRigid(s.enemies, s.direction, MarchStep(s.speed));
    FireInOrder(r.enemies, draws, s.chance, EnemyShotSpeed(s.level));
  }

  /** `all_sprites.update()`: the player's second update, then every bullet
      moves and those that left the screen go; enemies and blocks do nothing.
      The ensures spell out the stage for the whole-frame proofs; what it
      means is stated by `Rules.UpdateSpritesSteady` and `AdvanceInOrder`. */
  function UpdateSprites(s: Session, keys: Keys): (r: Session)
    ensures r.player == UpdatePlayer(s.player, keys)
    ensures r.playerBullets == Advance(s.playerBullets, StepPlayerBullet)
    ensures r.enemyBullets == Advance(s.enemyBullets, StepEnemyBullet)
    ensures r == s.(player := r.player, playerBullets := r.playerBullets, enemyBullets := r.enemyBullets)
  {
    s.(player := UpdatePlayer(s.player, keys),
       playerBullets := Advance(s.playerBullets, StepPlayerBullet),
       enemyBullets := Advance(s.enemyBullets, StepEnemyBullet))
  }

  /** Some enemy's bottom edge has reached the player's top edge. */
  predicate Invaded(es: seq<Enemy>, p: Player) {
    exists e :: e in es && e.rect.Bottom() >= p.rect.Top()
  }

  /** The collision passes and the game-over checks of a frame. */
  function Collide(s: Session): (r: Session)
    ensures r.player == s.player && r.direction == s.direction
    ensures r.speed == s.speed && r.chance == s.chance && r.level == s.level
    ensures forall e :: e in r.enemies ==> e in s.enemies
    ensures forall e, b :: e in r.enemies && b in r.playerBullets ==> !Overlaps(b.rect, e.rect)
    ensures |r.enemies| <= |s.enemies|
    ensures r.score == s.score + PointsPerEnemy * (|s.enemies| - |r.enemies|)
    ensures |s.enemies| - |r.enemies| <= |s.playerBullets| - |r.playerBullets|
    ensures forall b :: b in r.playerBullets ==> b in s.playerBullets
    ensures forall b, e :: b in r.playerBullets && e in s.enemies ==> !Overlaps(b.rect, e.rect)
    ensures forall b :: b in r.enemyBullets ==> b in s.enemyBullets && !Overlaps(b.rect, s.player.rect)
    ensures r.gameOver <==>
              || s.gameOver
              || (exists b :: b in s.enemyBullets && Overlaps(b.rect, s.player.rect))
              || Invaded(r.enemies, s.player)
    ensures AllStanding(s.barriers) ==> AllStanding(r.barriers)
    ensures Footprint(r.barriers) <= Footprint(s.barriers)
    ensures forall b, rect :: b in r.playerBullets + r.enemyBullets && rect in Footprint(r.barriers) ==>
              !Overlaps(b.rect, rect)
  {
    var hits := ShootEnemies(s.enemies, s.playerBullets);
    var shotAt := RemoveOverlapping(s.enemyBullets, s.player.rect);
    var (pbs, blocks) := ShootBarriers(hits.bullets, s.barriers);
    var (ebs, blocks') := ShootBarriers(shotAt, blocks);
    var r := s.(enemies := hits.survivors,
                playerBullets := pbs,
                enemyBullets := ebs,
                barriers := blocks',
                score := s.score + Points(hits),
                gameOver := s.gameOver || |shotAt| < |s.enemyBullets| || Invaded(hits.survivors, s.player));
    assert forall b :: b in r.playerBullets + r.enemyBullets ==> b in pbs || b in ebs;
    r
  }

  /** The enemies left by the collision pass are those of the frame, in
      group order, less each one that some player bullet overlaps which no
      enemy before it in the group overlaps. */
  lemma CollideKills(s: Session)
    ensures Collide(s).enemies == Somes(Standing(s.enemies, s.playerBullets), 0)
  {
    ShootEnemiesKills(s.enemies, s.playerBullets);
  }

  /** What the collision passes keep: a player bullet that overlaps no enemy
      and no block, an enemy bullet that overlaps neither the player nor a
      block, and a block that no bullet overlaps all come through the frame. */
  lemma CollideKeeps(s: Session)
    ensures forall b :: (b in s.playerBullets && (forall e :: e in s.enemies ==> !Overlaps(b.rect, e.rect))
                         && (forall rect :: rect in Footprint(s.barriers) ==> !Overlaps(b.rect, rect))) ==>
              b in Collide(s).playerBullets
    ensures forall b :: (b in s.enemyBullets && !Overlaps(b.rect, s.player.rect)
                         && (forall rect :: rect in Footprint(s.barriers) ==> !Overlaps(b.rect, rect))) ==>
              b in Collide(s).enemyBullets
    ensures forall blk :: (blk in s.barriers
                           && (forall b :: b in s.playerBullets + s.enemyBullets ==> !Overlaps(b.rect, blk.rect))) ==>
              blk in Collide(s).barriers
  {
    var r := Collide(s);
    var hits := ShootEnemies(s.enemies, s.playerBullets);
    var shotAt := RemoveOverlapping(s.enemyBullets, s.player.rect);
    var (pbs, blocks) := ShootBarriers(hits.bullets, s.barriers);
    forall b | (b in s.playerBullets && (forall e :: e in s.enemies ==> !Overlaps(b.rect, e.rect))
                && (forall rect :: rect in Footprint(s.barriers) ==> !Overlaps(b.rect, rect)))
      ensures b in r.playerBullets
    {
      assert b in hits.bullets;
    }
    forall b | (b in s.enemyBullets && !Overlaps(b.rect, s.player.rect)
                && (forall rect :: rect in Footprint(s.barriers) ==> !Overlaps(b.rect, rect)))
      ensures b in r.enemyBullets
    {
      assert b in shotAt;
      assert forall rect :: rect in Footprint(blocks) ==> rect in Footprint(s.barriers);
    }
    forall blk | (blk in s.barriers
                  && (forall b :: b in s.playerBullets + s.enemyBullets ==> !Overlaps(b.rect, blk.rect)))
      ensures blk in r.barriers
    {
      assert forall b :: b in hits.bullets ==> b in s.playerBullets + s.enemyBullets;
      assert blk in blocks;
      assert forall b :: b in shotAt ==> b in s.playerBullets + s.enemyBullets;
    }
  }

  /** The collision passes keep each bullet group's order, and while every
      block is standing, each bullet a block stopped costs the barriers
      exactly one point of health. */
  lemma CollideOrderAndDamage(s: Session)
    ensures SubSeq(Collide(s).playerBullets, s.playerBullets)
    ensures SubSeq(Collide(s).enemyBullets, s.enemyBullets)
    ensures AllStanding(s.barriers) ==>
              HealthSum(Collide(s).barriers) == HealthSum(s.barriers)
                - (|ShootEnemies(s.enemies, s.playerBullets).bullets| - |Collide(s).playerBullets|)
                - (|RemoveOverlapping(s.enemyBullets, s.player.rect)| - |Collide(s).enemyBullets|)
  {
    var hits := ShootEnemies(s.enemies, s.playerBullets);
    var shotAt := RemoveOverlapping(s.enemyBullets, s.player.rect);
    var (pbs, blocks) := ShootBarriers(hits.bullets, s.barriers);
    var (ebs, blocks') := ShootBarriers(shotAt, blocks);
    SubSeqTransitive(pbs, hits.bullets, s.playerBullets);
    SubSeqTransitive(ebs, shotAt, s.enemyBullets);
  }

  /** The body of the main loop while the game is on, after the events. The
      score never falls, the level rises by at most one, and the frame never
      ends with the formation empty. */
  function Simulate(s: Session, keys: Keys, draws: seq<nat>): (r: Session)
    ensures r.score >= s.score
    ensures r.level == s.level || r.level == s.level + 1
    ensures |r.enemies| > 0
  {
    var moved := s.(player := UpdatePlayer(s.player, keys));
    var marched := EnemyTurn(moved, draws);
    var updated := UpdateSprites(marched, keys);
    var collided := Collide(updated);
    if |collided.enemies| == 0 then AdvanceLevel(collided) else collided
  }

  /** One frame of the main loop. A frame of play never lowers the score and
      raises the level by at most one; with the game over and no restart
      pressed, nothing happens. */
  function Tick(s: Session, inp: Input): (r: Session)
    ensures !s.gameOver ==> r.score >= s.score && (r.level == s.level || r.level == s.level + 1)
    ensures s.gameOver && (forall i :: 0 <= i < |inp.events| ==> inp.events[i] == Shoot) ==> r == s
  {
    var handled := HandleEvents(s, inp.events);
    if handled.gameOver then handled else Simulate(handled, inp.keys, inp.draws)
  }
}

=== FILE: geometry.dfy ===
/** Screen constants and integer rectangles with
    pygame's `Rect` conventions (top-left corner, width, height). */
module Geometry {

  const Width: int := 800
  const Height: int := 600

  /** An axis-aligned rectangle; `x`/`y` is the top-left corner, as in pygame. */
  datatype Rect = Rect(x: int, y: int, w: nat, h: nat) {
    function Left(): int { x }
    function Right(): int { x + w }
    function Top(): int { y }
    function Bottom(): int { y + h }
    /** pygame computes the centre with integer halving of the size. */
    function CenterX(): int { x + w / 2 }
    function CenterY(): int { y + h / 2 }

    function Shift(dx: int, dy: int): (r: Rect)
      ensures r.w == w && r.h == h
      ensures r.Left() - Left() == dx && r.Top() - Top() == dy
      ensures r.CenterX() - CenterX() == dx && r.CenterY() - CenterY() == dy
    {
      Rect(x + dx, y + dy, w, h)
    }
  }

  /** `get_rect(center=(cx, cy))` for a surface of size `w` by `h`. */
  function CenteredAt(cx: int, cy: int, w: nat, h: nat): (r: Rect)
    ensures r.w == w && r.h == h
    ensures r.CenterX() == cx && r.CenterY() == cy
  {
    Rect(cx - w / 2, cy - h / 2, w, h)
  }

  /** `get_rect(midbottom=(cx, bottom))` for a surface of size `w` by `h`. */
  function MidBottomAt(cx: int, bottom: int, w: nat, h: nat): (r: Rect)
    ensures r.w == w && r.h == h
    ensures r.CenterX() == cx && r.Bottom() == bottom
  {
    Rect(cx - w / 2, bottom - h, w, h)
  }

  /** Strict intersection of two rectangles: touching edges do not overlap.
      This is the test pygame's `colliderect` performs on rectangles of
      positive size. */
  predicate Overlaps(a: Rect, b: Rect) {
    && a.Left() < b.Right()
    && a.Top() < b.Bottom()
    && a.Right() > b.Left()
    && a.Bottom() > b.Top()
  }
}

=== FILE: rules.dfy ===
/** Properties of whole frames: what the game-over flag freezes, what a
    restart rebuilds, how the score grows, and the invariant every frame
    keeps. */
module Rules {
  import opened Geometry
  import opened Sprites
  import opened Collisions
  import opened Setup
  import opened Game

  /** What holds of the session between any two frames. */
  predicate Valid(s: Session) {
    Steady(s) && |s.enemies| > 0
  }

  /** The invariant less the formation being non-empty, which a frame only
      restores at its very end. */
  predicate Steady(s: Session) {
    Bounded(s) && BulletsInPlay(s)
  }

  /** No bullet lies wholly outside the screen in the direction it leaves by. */
  predicate BulletsInPlay(s: Session) {
    && (forall b :: b in s.playerBullets ==> PlayerBulletInPlay(b.rect))
    && (forall b :: b in s.enemyBullets ==> EnemyBulletInPlay(b.rect))
  }

  /** The player on screen at its fixed height, the cooldown, direction,
      fire chance, level and score within their ranges, the barriers standing. */
  predicate Bounded(s: Session) {
    && PlayerBounded(s.player)
    && (s.direction == 1 || s.direction == -1)
    && s.chance <= ChanceCap
    && s.level >= 1
    && s.score % PointsPerEnemy == 0
    && AllStanding(s.barriers)
  }

  /** The player at its fixed size and height, on screen, its cooldown in range. */
  predicate PlayerBounded(p: Player) {
    && p.rect.w == PlayerSize && p.rect.h == PlayerSize
    && p.rect.y == NewPlayer().rect.y
    && OnScreen(p.rect)
    && p.cooldown <= ShotCooldown
  }

  lemma UpdateKeepsPlayerBounded(p: Player, keys: Keys)
    requires PlayerBounded(p)
    ensures PlayerBounded(UpdatePlayer(p, keys))
  {
  }

  lemma AddPoints(score: int, kills: int, total: int)
    requires score % PointsPerEnemy == 0 && total == score + PointsPerEnemy * kills
    ensures total % PointsPerEnemy == 0
  {
  }

  lemma BarriersStanding()
    ensures AllStanding(Barriers())
  {
    BarriersShape();
  }

  lemma FreshIsValid(chance: nat)
    requires chance <= ChanceCap
    ensures Valid(Fresh(chance))
  {
    BarriersStanding();
  }

  lemma StartIsValid()
    ensures Valid(Start())
    ensures Start().chance == InitialChance
  {
    FreshIsValid(InitialChance);
  }

  /** While the game is over, key presses other than restart do nothing. */
  lemma {:induction false} EventsIgnoredWhileOver(s: Session, evs: seq<Event>)
    requires s.gameOver && Restart !in evs
    ensures HandleEvents(s, evs) == s
    decreases |evs|
  {
    if |evs| > 0 {
      assert evs[0] == Shoot;
      assert Restart !in evs[1..];
      EventsIgnoredWhileOver(s, evs[1..]);
    }
  }

  /** While the game is over and no restart is pressed, a frame changes
      nothing at all: no movement, no firing, no collision. */
  lemma FrozenWhileOver(s: Session, inp: Input)
    requires s.gameOver && Restart !in inp.events
    ensures Tick(s, inp) == s
  {
    EventsIgnoredWhileOver(s, inp.events);
  }

  /** While the game is on, the key presses of a frame only ever shoot:
      the first shoot press with the cooldown at zero fires one bullet from
      the player's top centre and restarts the cooldown, every other press
      (restart included) does nothing. */
  lemma {:induction false} EventsWhilePlaying(s: Session, evs: seq<Event>)
    requires !s.gameOver
    ensures var r := HandleEvents(s, evs);
            if s.player.cooldown == 0 && Shoot in evs then
              r == s.(player := s.player.(cooldown := ShotCooldown),
                      playerBullets := s.playerBullets + [PlayerShot(s.player)])
            else r == s
    decreases |evs|
  {
    if |evs| > 0 {
      var next := HandleEvent(s, evs[0]);
      EventsWhilePlaying(next, evs[1..]);
      assert evs == [evs[0]] + evs[1..];
      if evs[0] == Shoot && s.player.cooldown == 0 {
        assert next.player.cooldown == ShotCooldown;
        assert HandleEvents(s, evs) == next;
      }
    }
  }

  /** The state a restart leaves, up to the shots fired after it in the same frame. */
  predicate Rebuilt(r: Session, chance: nat) {
    && r.score == 0 && r.level == 1 && !r.gameOver
    && r.direction == 1 && r.speed == InitialSpeed && r.chance == chance
    && r.enemies == EnemyWave(EnemyRows, EnemyCols) && r.barriers == Barriers()
    && r.enemyBullets == [] && |r.playerBullets| <= 1
    && r.player.rect == NewPlayer().rect
  }

  /** Everything but the player's cooldown and bullets is as in `f`, and at
      most one bullet was added. */
  predicate KeptBy(r: Session, f: Session) {
    && r.score == f.score && r.level == f.level && r.gameOver == f.gameOver
    && r.direction == f.direction && r.speed == f.speed && r.chance == f.chance
    && r.enemies == f.enemies && r.barriers == f.barriers
    && r.enemyBullets == f.enemyBullets && |r.playerBullets| <= |f.playerBullets| + 1
    && r.player.rect == f.player.rect
  }

  /** While the game is on, the key presses of a frame touch nothing but the
      player's cooldown and bullets, and fire at most once. */
  lemma EventsKeep(s: Session, evs: seq<Event>)
    requires !s.gameOver
    ensures KeptBy(HandleEvents(s, evs), s)
  {
    EventsWhilePlaying(s, evs);
  }

  lemma RestartThenEvents(chance: nat, evs: seq<Event>)
    ensures Rebuilt(HandleEvents(Fresh(chance), evs), chance)
  {
    EventsKeep(Fresh(chance), evs);
  }

  /** A restart pressed while the game is over rebuilds the game: score 0,
      level 1, a full wave, fresh barriers, the player back at the start, no
      enemy bullets, and the fire chance kept. Shoot presses later in the same
      frame may already have fired one bullet. */
  lemma {:induction false} RestartRebuilds(s: Session, evs: seq<Event>)
    requires s.gameOver && Restart in evs
    ensures Rebuilt(HandleEvents(s, evs), s.chance)
    decreases |evs|
  {
    assert HandleEvents(s, evs) == HandleEvents(HandleEvent(s, evs[0]), evs[1..]);
    if evs[0] == Restart {
      assert HandleEvent(s, evs[0]) == Fresh(s.chance);
      RestartThenEvents(s.chance, evs[1..]);
    } else {
      assert HandleEvent(s, evs[0]) == s;
      assert Restart in evs[1..];
      RestartRebuilds(s, evs[1..]);
    }
  }

  /** The player's first update and the formation's turn keep the player
      on screen and the direction a unit. (The bullets the formation fires
      may start below the screen; the sprite update removes those.) */
  lemma EarlyStagesBounded(s: Session, keys: Keys, draws: seq<nat>)
    requires Bounded(s)
    ensures Bounded(EnemyTurn(s.(player := UpdatePlayer(s.player, keys)), draws))
  {
    UpdateKeepsPlayerBounded(s.player, keys);
  }

  /** The sprite update leaves only bullets that are still in play. */
  lemma UpdateSpritesSteady(s: Session, keys: Keys)
    requires Bounded(s)
    ensures Steady(UpdateSprites(s, keys))
  {
    UpdatedBulletsInPlay(s, keys);
    UpdatedBounded(s, keys);
  }

  lemma UpdatedBounded(s: Session, keys: Keys)
    requires Bounded(s)
    ensures Bounded(UpdateSprites(s, keys))
  {
    UpdateKeepsPlayerBounded(s.player, keys);
  }

  lemma UpdatedBulletsInPlay(s: Session, keys: Keys)
    ensures BulletsInPlay(UpdateSprites(s, keys))
  {
    AdvancePlayerBulletsInPlay(s.playerBullets);
    AdvanceEnemyBulletsInPlay(s.enemyBullets);
  }

  /** The collision passes only remove bullets and damage blocks, and add
      whole multiples of ten to the score. */
  lemma CollideSteady(s: Session)
    requires Steady(s)
    ensures Steady(Collide(s))
  {
    var r := Collide(s);
    AddPoints(s.score, |s.enemies| - |r.enemies|, r.score);
    assert r.score % PointsPerEnemy == 0;
    assert AllStanding(r.barriers);
    assert r.player == s.player;
    assert BulletsInPlay(r);
    assert Bounded(r);
  }

  /** Clearing a wave leaves a valid session with a full formation. */
  lemma AdvanceLevelValid(s: Session)
    requires Steady(s)
    ensures Valid(AdvanceLevel(s))
  {
    assert s.player.rect.w / 2 == PlayerSize / 2;
    BarriersStanding();
  }

  /** Every frame keeps the invariant. */
  lemma TickKeepsValid(s: Session, inp: Input)
    requires Valid(s)
    ensures Valid(Tick(s, inp))
  {
    var handled := HandleEvents(s, inp.events);
    ValidAfterEvents(s, inp.events);
    if !handled.gameOver {
      SimulateKeepsValid(handled, inp.keys, inp.draws);
    }
  }

  lemma {:induction false} ValidAfterEvents(s: Session, evs: seq<Event>)
    requires Valid(s)
    ensures Valid(HandleEvents(s, evs))
    decreases |evs|
  {
    if |evs| > 0 {
      var next := HandleEvent(s, evs[0]);
      if evs[0] == Restart && s.gameOver {
        FreshIsValid(s.chance);
      } else if evs[0] == Shoot && !s.gameOver && s.player.cooldown == 0 {
        assert next.playerBullets == s.playerBullets + [PlayerShot(s.player)];
        assert forall b :: b in next.playerBullets ==> b in s.playerBullets || b == PlayerShot(s.player);
      }
      ValidAfterEvents(next, evs[1..]);
    }
  }

  lemma SimulateKeepsValid(s: Session, keys: Keys, draws: seq<nat>)
    requires Valid(s)
    ensures Valid(Simulate(s, keys, draws))
  {
    var moved := s.(player := UpdatePlayer(s.player, keys));
    var marched := EnemyTurn(moved, draws);
    EarlyStagesBounded(s, keys, draws);
    var updated := UpdateSprites(marched, keys);
    UpdateSpritesSteady(marched, keys);
    var collided := Collide(updated);
    CollideSteady(updated);
    if |collided.enemies| == 0 {
      AdvanceLevelValid(collided);
    }
  }

  /** The simulation step scores ten points per enemy destroyed and nothing
      else: when the wave is cleared (and the level goes up) that is every
      enemy the frame began with. */
  lemma SimulateScore(s: Session, keys: Keys, draws: seq<nat>)
    ensures var t := Simulate(s, keys, draws);
            && (t.level == s.level ==> t.score == s.score + PointsPerEnemy * (|s.enemies| - |t.enemies|))
            && (t.level != s.level ==> t.level == s.level + 1 && t.score == s.score + PointsPerEnemy * |s.enemies|)
  {
    var moved := s.(player := UpdatePlayer(s.player, keys));
    var marched := EnemyTurn(moved, draws);
    var updated := UpdateSprites(marched, keys);
    assert updated.score == s.score && |updated.enemies| == |s.enemies| && updated.level == s.level;
  }

  /** A frame of play scores exactly ten points per enemy it destroys. */
  lemma ScoreCountsKills(s: Session, inp: Input)
    requires !s.gameOver
    ensures var t := Tick(s, inp);
            && (t.level == s.level ==> t.score == s.score + PointsPerEnemy * (|s.enemies| - |t.enemies|))
            && (t.level != s.level ==> t.level == s.level + 1 && t.score == s.score + PointsPerEnemy * |s.enemies|)
  {
    EventsWhilePlaying(s, inp.events);
    SimulateScore(HandleEvents(s, inp.events), inp.keys, inp.draws);
  }

  /** Within a run the score never goes down; only a restart sets it back
      to zero. */
  lemma ScoreNeverDecreases(s: Session, inp: Input)
    requires !(s.gameOver && Restart in inp.events)
    ensures Tick(s, inp).score >= s.score
  {
    if s.gameOver {
      FrozenWhileOver(s, inp);
    } else {
      EventsWhilePlaying(s, inp.events);
      var handled := HandleEvents(s, inp.events);
      assert handled.enemies == s.enemies;
      SimulateScore(handled, inp.keys, inp.draws);
      if Tick(s, inp).level == s.level {
        assert |Tick(s, inp).enemies| <= |s.enemies|;
      }
    }
  }

  /** Each level advance adds 0.0008 to the fire chance until it reaches
      0.01, where it stays. */
  lemma {:induction false} ChanceAfterLevels(levels: nat, chance: nat)
    requires chance <= ChanceCap
    ensures ChanceAfter(levels, chance) ==
            if chance + ChanceStep * levels >= ChanceCap then ChanceCap else chance + ChanceStep * levels
    decreases levels
  {
    if levels > 0 {
      ChanceAfterLevels(levels - 1, NextChance(chance));
    }
  }

  /** From the start the fire chance reaches its cap on the tenth level
      advance, and not before. */
  lemma ChanceCapsAtTenthAdvance(levels: nat)
    ensures ChanceAfter(levels, InitialChance) == ChanceCap <==> levels >= 10
  {
    ChanceAfterLevels(levels, InitialChance);
  }

  /** A frame of play never ends with the formation empty: clearing a wave
      raises the level in the same frame, with a new wave and new barriers,
      the player recentred, a faster formation and a higher fire chance. */
  lemma LevelProgress(s: Session, inp: Input)
    requires Valid(s) && !s.gameOver
    ensures var t := Tick(s, inp);
            && |t.enemies| > 0
            && (t.level == s.level || t.level == s.level + 1)
            && (t.level == s.level + 1 ==>
                  && |t.enemies| == EnemyRows * EnemyCols
                  && t.barriers == Barriers()
                  && t.player.rect.CenterX() == Width / 2
                  && t.speed == s.speed + SpeedStep
                  && t.chance == NextChance(s.chance))
            && (t.level == s.level ==> t.speed == s.speed && t.chance == s.chance)
  {
    EventsWhilePlaying(s, inp.events);
    TickKeepsValid(s, inp);
  }
}

=== FILE: seqs.dfy ===
/** Order-preserving selection from a sprite group. A frame decides, sprite by
    sprite, whether each member stays (`Some`, possibly moved) or leaves the
    group (`None`); the group that remains is what `Somes` lists. */
module Seqs {
  import opened Wrappers

  /** The positions, from `from` on, of the entries of `s` that are present. */
  function SomePositions<T>(s: seq<Option<T>>, from: nat): (ks: seq<nat>)
    requires from <= |s|
    ensures forall n :: 0 <= n < |ks| ==> from <= ks[n] < |s| && s[ks[n]].Some?
    ensures forall n, m :: 0 <= n < m < |ks| ==> ks[n] < ks[m]
    decreases |s| - from
  {
    if from == |s| then []
    else if s[from].Some? then [from] + SomePositions(s, from + 1)
    else SomePositions(s, from + 1)
  }

  /** No present entry's position is missing. */
  lemma {:induction false} SomePositionsComplete<T>(s: seq<Option<T>>, from: nat)
    requires from <= |s|
    ensures forall k :: from <= k < |s| && s[k].Some? ==> k in SomePositions(s, from)
    decreases |s| - from
  {
    if from < |s| {
      SomePositionsComplete(s, from + 1);
    }
  }

  /** The values of the present entries of `s` from `from` on, in the order
      of `s` (see `SomesIndexMap`). */
  function Somes<T>(s: seq<Option<T>>, from: nat): (r: seq<T>)
    requires from <= |s|
    ensures |r| <= |s| - from
    decreases |s| - from
  {
    if from == |s| then []
    else match s[from]
      case Some(x) => [x] + Somes(s, from + 1)
      case None => Somes(s, from + 1)
  }

  /** The `n`-th listed value sits at the `n`-th present position: the order
      of `s` is kept and no present entry is listed twice or left out. */
  lemma {:induction false} SomesIndexMap<T>(s: seq<Option<T>>, from: nat)
    requires from <= |s|
    ensures var ks := SomePositions(s, from); var r := Somes(s, from);
      |r| == |ks| && forall n :: 0 <= n < |r| ==> s[ks[n]] == Some(r[n])
    decreases |s| - from
  {
    if from < |s| {
      SomesIndexMap(s, from + 1);
      var ks, r := SomePositions(s, from + 1), Somes(s, from + 1);
      match s[from]
      case None =>
        assert SomePositions(s, from) == ks && Somes(s, from) == r;
      case Some(x) =>
        var ks', r' := [from] + ks, [x] + r;
        assert SomePositions(s, from) == ks' && Somes(s, from) == r';
        forall n | 0 <= n < |r'|
          ensures s[ks'[n]] == Some(r'[n])
        {
          if n > 0 {
            assert ks'[n] == ks[n - 1] && r'[n] == r[n - 1];
          }
        }
    }
  }

  /** Dropping the first entry does not change what follows it. */
  lemma {:induction false} SomesTail<T>(s: seq<Option<T>>, from: nat)
    requires 1 <= from <= |s|
    ensures Somes(s, from) == Somes(s[1..], from - 1)
    decreases |s| - from
  {
    if from < |s| {
      SomesTail(s, from + 1);
      assert s[1..][from - 1] == s[from];
    }
  }

  /** The present values from the start of `s`, as a list over `s`'s head. */
  lemma {:induction false} SomesCons<T>(s: seq<Option<T>>)
    requires |s| > 0
    ensures Somes(s, 0) == (match s[0] case Some(x) => [x] case None => []) + Somes(s[1..], 0)
  {
    SomesTail(s, 1);
  }

  /** Every listed value comes from some present entry, and every present
      entry's value is listed. */
  lemma {:induction false} SomesMembers<T>(s: seq<Option<T>>, from: nat)
    requires from <= |s|
    ensures forall x :: x in Somes(s, from) ==> exists k :: from <= k < |s| && s[k] == Some(x)
    ensures forall k :: from <= k < |s| && s[k].Some? ==> s[k].value in Somes(s, from)
    decreases |s| - from
  {
    if from < |s| {
      SomesMembers(s, from + 1);
      forall x | x in Somes(s, from)
        ensures exists k :: from <= k < |s| && s[k] == Some(x)
      {
        if s[from] != Some(x) {
          assert x in Somes(s, from + 1);
        }
      }
    }
  }

  lemma {:induction false} SomesLength<T>(s: seq<Option<T>>, from: nat)
    requires from <= |s|
    ensures |Somes(s, from)| <= |s| - from
    ensures |Somes(s, from)| == |s| - from <==> forall k :: from <= k < |s| ==> s[k].Some?
    decreases |s| - from
  {
    if from < |s| {
      SomesLength(s, from + 1);
      assert |Somes(s, from)| == (if s[from].Some? then 1 else 0) + |Somes(s, from + 1)|;
    }
  }

  /** `r` is `s` with some entries left out, the rest in their order. */
  predicate SubSeq<T(==)>(r: seq<T>, s: seq<T>)
    decreases |s|
  {
    |r| == 0 || (|s| > 0 && ((r[0] == s[0] && SubSeq(r[1..], s[1..])) || SubSeq(r, s[1..])))
  }

  lemma {:induction false} SubSeqReflexive<T>(s: seq<T>)
    ensures SubSeq(s, s)
    decreases |s|
  {
    if |s| > 0 {
      SubSeqReflexive(s[1..]);
    }
  }

  lemma {:induction false} SubSeqTransitive<T>(a: seq<T>, b: seq<T>, c: seq<T>)
    requires SubSeq(a, b) && SubSeq(b, c)
    ensures SubSeq(a, c)
    decreases |c|
  {
    if |a| > 0 {
      if SubSeq(b, c[1..]) {
        SubSeqTransitive(a, b, c[1..]);
      } else if a[0] == b[0] && SubSeq(a[1..], b[1..]) {
        SubSeqTransitive(a[1..], b[1..], c[1..]);
      } else {
        SubSeqTransitive(a, b[1..], c[1..]);
      }
    }
  }
}

=== FILE: setup.dfy ===
/** Construction of a fresh player, enemy wave and barrier clusters. */
module Setup {
  import opened Geometry
  import opened Sprites

  const EnemyRows: nat := 5
  const EnemyCols: nat := 10
  const EnemyXPadding: int := 60
  const EnemyYPadding: int := 40
  const EnemyStartY: int := 50
  const EnemyWidth: nat := 40
  const EnemyHeight: nat := 28

  const BlockSize: nat := 8
  const BrickSpacing: int := 10
  /** Top edge of the barrier clusters. */
  const BarrierTop: int := Height - 140

  /** `Player(WIDTH // 2, HEIGHT - 30)`: a 40 by 40 ship standing on the line
      thirty pixels above the bottom, centred, ready to fire. */
  function NewPlayer(): (p: Player)
    ensures p.rect.CenterX() == Width / 2 && p.rect.Bottom() == Height - 30
    ensures p.rect.w == PlayerSize && p.rect.h == PlayerSize && p.cooldown == 0
    ensures OnScreen(p.rect)
  {
    Player(MidBottomAt(Width / 2, Height - 30, PlayerSize, PlayerSize), 0)
  }

  /** Left margin that centres `cols` columns on the screen (Python `//`,
      which agrees with Dafny's `/` for a positive divisor). */
  function WaveMargin(cols: nat): int {
    (Width - cols * EnemyXPadding) / 2
  }

  /** The enemy `create_enemy_wave` places at `row`, `col`. */
  function EnemySlot(cols: nat, row: int, col: int): Enemy {
    Enemy(Rect(WaveMargin(cols) + col * EnemyXPadding, EnemyStartY + row * EnemyYPadding,
               EnemyWidth, EnemyHeight))
  }

  /** The inner loop of `create_enemy_wave`: one row, left to right. */
  function WaveRow(cols: nat, row: nat): (r: seq<Enemy>)
    ensures |r| == cols
    ensures forall c :: 0 <= c < cols ==> r[c] == EnemySlot(cols, row, c)
  {
    seq(cols, c requires 0 <= c < cols => EnemySlot(cols, row, c))
  }

  lemma Distrib(a: int, b: int, c: int)
    ensures (a - b) * c == a * c - b * c
  {
  }

  lemma {:induction false} MulAtLeast(a: nat, b: nat)
    requires a >= 1
    ensures a * b >= b
    decreases a
  {
    if a > 1 {
      MulAtLeast(a - 1, b);
      assert a * b == (a - 1) * b + b;
    }
  }

  lemma DivModOfRowMajor(k: int, q: nat, c: int, cols: nat)
    requires 0 <= c < cols && k == q * cols + c
    ensures k / cols == q && k % cols == c
  {
    var d := k / cols;
    var m := k % cols;
    assert k == d * cols + m && 0 <= m < cols;
    if d < q {
      Distrib(q, d, cols);
      MulAtLeast(q - d, cols);
    } else if d > q {
      Distrib(d, q, cols);
      MulAtLeast(d - q, cols);
    }
  }

  /** `create_enemy_wave(rows, cols)`: rows top to bottom, each left to
      right, so the enemy at position `k` sits in row `k / cols` and column
      `k % cols`. */
  function EnemyWave(rows: nat, cols: nat): (r: seq<Enemy>)
    ensures |r| == rows * cols
    decreases rows
  {
    if rows == 0 then [] else EnemyWave(rows - 1, cols) + WaveRow(cols, rows - 1)
  }

  /** The enemy at position `k` of the wave sits in row `k / cols` and
      column `k % cols`. */
  lemma {:induction false} EnemyWaveSlots(rows: nat, cols: nat)
    ensures forall k :: 0 <= k < rows * cols ==> EnemyWave(rows, cols)[k] == EnemySlot(cols, k / cols, k % cols)
    decreases rows
  {
    if rows > 0 {
      EnemyWaveSlots(rows - 1, cols);
      var above := EnemyWave(rows - 1, cols);
      var r := EnemyWave(rows, cols);
      assert r == above + WaveRow(cols, rows - 1);
      forall k | 0 <= k < rows * cols
        ensures r[k] == EnemySlot(cols, k / cols, k % cols)
      {
        if k < |above| {
          assert r[k] == above[k];
        } else {
          DivModOfRowMajor(k, rows - 1, k - (rows - 1) * cols, cols);
        }
      }
    }
  }

  /** The standard wave: five rows of ten, the columns 60 apart starting at
      x = 100, the rows 40 apart starting at y = 50. */
  lemma StandardWave()
    ensures var r := EnemyWave(EnemyRows, EnemyCols);
            && |r| == 50
            && forall k :: 0 <= k < |r| ==>
                 r[k].rect == Rect(100 + (k % 10) * 60, 50 + (k / 10) * 40, 40, 28)
  {
    EnemyWaveSlots(EnemyRows, EnemyCols);
  }

  /** The standard wave starts wholly on screen and well above the player. */
  lemma StandardWaveOnScreen()
    ensures forall e :: e in EnemyWave(EnemyRows, EnemyCols) ==>
              && 0 < e.rect.Left() && e.rect.Right() < Width
              && e.rect.Bottom() < NewPlayer().rect.Top()
  {
    StandardWave();
    var r := EnemyWave(EnemyRows, EnemyCols);
    forall e | e in r
      ensures 0 < e.rect.Left() && e.rect.Right() < Width && e.rect.Bottom() < NewPlayer().rect.Top()
    {
      var k :| 0 <= k < |r| && r[k] == e;
      assert 0 <= k % 10 < 10 && 0 <= k / 10 < 5;
    }
  }

  /** Horizontal centres of the three barrier clusters. */
  const BarrierCentres: seq<int> := [Width / 4, Width / 2, 3 * Width / 4]

  /** The block at brick offset `col`, `row` of the cluster centred at `centre`. */
  function BrickAt(centre: int, col: int, row: int): Rect {
    Rect(centre + col * BrickSpacing, BarrierTop + row * BrickSpacing, BlockSize, BlockSize)
  }

  /** The brick pattern: seven columns of three, less the top corners. */
  predicate IsBrick(col: int, row: int) {
    -3 <= col <= 3 && 0 <= row <= 2 && !((col == -3 || col == 3) && row == 0)
  }

  /** The innermost loop of `create_barriers`: column `col`, rows `row` to 2. */
  function BrickColumn(centre: int, col: int, row: nat): (r: seq<Block>)
    requires -3 <= col <= 3 && row <= 3
    ensures |r| == (3 - row) - (if (col == -3 || col == 3) && row == 0 then 1 else 0)
    decreases 3 - row
  {
    if row == 3 then []
    else if (col == -3 || col == 3) && row == 0 then BrickColumn(centre, col, row + 1)
    else [Block(BrickAt(centre, col, row), BlockHealth)] + BrickColumn(centre, col, row + 1)
  }

  /** Rows `row` to 2 of column `col` hold one full-health block per brick
      of the pattern, and nothing else. */
  lemma {:induction false} BrickColumnShape(centre: int, col: int, row: nat)
    requires -3 <= col <= 3 && row <= 3
    ensures forall b :: b in BrickColumn(centre, col, row) ==>
              b.health == BlockHealth && exists y :: row <= y <= 2 && IsBrick(col, y) && b.rect == BrickAt(centre, col, y)
    ensures forall y :: row <= y <= 2 && IsBrick(col, y) ==> Block(BrickAt(centre, col, y), BlockHealth) in BrickColumn(centre, col, row)
    decreases 3 - row
  {
    if row < 3 {
      BrickColumnShape(centre, col, row + 1);
    }
  }

  /** The middle loop of `create_barriers`: columns `col` to 3 of one cluster. */
  function ClusterFrom(centre: int, col: int): (r: seq<Block>)
    requires -3 <= col <= 4
    ensures |r| == 3 * (4 - col) - (if col <= -3 then 1 else 0) - (if col <= 3 then 1 else 0)
    decreases 4 - col
  {
    if col == 4 then []
    else BrickColumn(centre, col, 0) + ClusterFrom(centre, col + 1)
  }

  /** Columns `col` to 3 hold one full-health block per brick of the pattern
      in those columns, and nothing else. */
  lemma {:induction false} ClusterFromShape(centre: int, col: int)
    requires -3 <= col <= 4
    ensures forall b :: b in ClusterFrom(centre, col) ==>
              b.health == BlockHealth && exists x, y :: col <= x && IsBrick(x, y) && b.rect == BrickAt(centre, x, y)
    ensures forall x, y :: col <= x && IsBrick(x, y) ==>
              Block(BrickAt(centre, x, y), BlockHealth) in ClusterFrom(centre, col)
    decreases 4 - col
  {
    if col < 4 {
      ClusterFromShape(centre, col + 1);
      BrickColumnShape(centre, col, 0);
      var here := BrickColumn(centre, col, 0);
      var rest := ClusterFrom(centre, col + 1);
      assert ClusterFrom(centre, col) == here + rest;
      forall b: Block | b in here + rest
        ensures b.health == BlockHealth &&
                exists x, y :: col <= x && IsBrick(x, y) && b.rect == BrickAt(centre, x, y)
      {
        if b in here {
          var y :| 0 <= y <= 2 && IsBrick(col, y) && b.rect == BrickAt(centre, col, y);
        } else {
          assert b in rest;
        }
      }
      forall x, y | col <= x && IsBrick(x, y)
        ensures Block(BrickAt(centre, x, y), BlockHealth) in here + rest
      {
        if x == col {
          assert Block(BrickAt(centre, x, y), BlockHealth) in here;
        } else {
          assert Block(BrickAt(centre, x, y), BlockHealth) in rest;
        }
      }
    }
  }

  /** One cluster of `create_barriers`: nineteen blocks. */
  function Cluster(centre: int): (r: seq<Block>)
    ensures |r| == 19
  {
    ClusterFrom(centre, -3)
  }

  /** The outer loop of `create_barriers`: one cluster per centre, in order. */
  function Clusters(centres: seq<int>): (r: seq<Block>)
    ensures |r| == 19 * |centres|
    decreases |centres|
  {
    if |centres| == 0 then [] else Cluster(centres[0]) + Clusters(centres[1..])
  }

  /** Every block of the clusters starts at full health on a brick of the
      pattern around one of the centres, and every such brick has its block. */
  lemma {:induction false} ClustersShape(centres: seq<int>)
    ensures forall b :: b in Clusters(centres) ==>
              b.health == BlockHealth && exists c, x, y :: c in centres && IsBrick(x, y) && b.rect == BrickAt(c, x, y)
    ensures forall c, x, y :: c in centres && IsBrick(x, y) ==>
              Block(BrickAt(c, x, y), BlockHealth) in Clusters(centres)
    decreases |centres|
  {
    if |centres| > 0 {
      var c0 := centres[0];
      ClusterFromShape(c0, -3);
      ClustersShape(centres[1..]);
      var here := Cluster(c0);
      var rest := Clusters(centres[1..]);
      assert Clusters(centres) == here + rest;
      forall b: Block | b in here + rest
        ensures b.health == BlockHealth &&
                exists c, x, y :: c in centres && IsBrick(x, y) && b.rect == BrickAt(c, x, y)
      {
        if b in here {
          assert b in ClusterFrom(c0, -3);
          var x, y :| -3 <= x && IsBrick(x, y) && b.rect == BrickAt(c0, x, y);
        } else {
          assert b in rest;
          var c, x, y :| c in centres[1..] && IsBrick(x, y) && b.rect == BrickAt(c, x, y);
          assert c in centres;
        }
      }
      forall c, x, y | c in centres && IsBrick(x, y)
        ensures Block(BrickAt(c, x, y), BlockHealth) in here + rest
      {
        if c == c0 {
          assert Block(BrickAt(c, x, y), BlockHealth) in ClusterFrom(c0, -3);
        } else {
          assert c in centres[1..];
        }
      }
    }
  }

  /** `create_barriers`: the three clusters, left to right, 57 blocks. */
  function Barriers(): (r: seq<Block>)
    ensures |r| == 57
  {
    Clusters(BarrierCentres)
  }

  /** Every barrier block starts at full health on a brick of the pattern
      around one of the three centres, and every such brick has its block. */
  lemma BarriersShape()
    ensures forall b :: b in Barriers() ==>
              b.health == BlockHealth && exists c, x, y :: c in BarrierCentres && IsBrick(x, y) && b.rect == BrickAt(c, x, y)
    ensures forall c, x, y :: c in BarrierCentres && IsBrick(x, y) ==>
              Block(BrickAt(c, x, y), BlockHealth) in Barriers()
  {
    ClustersShape(BarrierCentres);
  }

  /** Bricks of different positions never overlap: neighbours in a cluster
      are ten pixels apart and eight wide, and clusters are 200 apart. */
  lemma BricksDisjoint(c1: int, x1: int, y1: int, c2: int, x2: int, y2: int)
    requires c1 in BarrierCentres && c2 in BarrierCentres
    requires IsBrick(x1, y1) && IsBrick(x2, y2)
    requires (c1, x1, y1) != (c2, x2, y2)
    ensures !Overlaps(BrickAt(c1, x1, y1), BrickAt(c2, x2, y2))
  {
  }

  /** So the freshly built barriers never overlap one another. */
  lemma BarriersDisjoint()
    ensures forall a, b :: a in Barriers() && b in Barriers() && a.rect != b.rect ==>
              !Overlaps(a.rect, b.rect)
  {
    BarriersShape();
    forall a, b | a in Barriers() && b in Barriers() && a.rect != b.rect
      ensures !Overlaps(a.rect, b.rect)
    {
      var c1, x1, y1 :| c1 in BarrierCentres && IsBrick(x1, y1) && a.rect == BrickAt(c1, x1, y1);
      var c2, x2, y2 :| c2 in BarrierCentres && IsBrick(x2, y2) && b.rect == BrickAt(c2, x2, y2);
      BricksDisjoint(c1, x1, y1, c2, x2, y2);
    }
  }
}

=== FILE: sprites.dfy ===
/** The four sprite kinds and their own per-frame behaviour: player movement
    and fire cooldown, bullet advance with off-screen removal, and barrier
    damage. Removal from a group (`kill`) is an `Option` that is `None`. */
module Sprites {
  import opened Wrappers
  import opened Geometry
  import opened Seqs

  const PlayerSpeed: int := 5
  const BulletSpeed: int := 10
  /** Frames (player updates) between two shots. */
  const ShotCooldown: nat := 12
  const PlayerSize: nat := 40
  const BlockHealth: int := 3

  datatype Player = Player(rect: Rect, cooldown: nat)
  datatype Enemy = Enemy(rect: Rect)
  /** A projectile; `vy` is its fixed vertical velocity per update. */
  datatype Bullet = Bullet(rect: Rect, vy: int)
  datatype Block = Block(rect: Rect, health: int)

  /** The movement keys held during a frame (arrow key or its letter twin). */
  datatype Keys = Keys(left: bool, right: bool)

  /** Horizontal displacement requested by the held keys: both keys cancel. */
  function KeyDelta(keys: Keys): (d: int)
    ensures keys.left == keys.right ==> d == 0
    ensures keys.left && !keys.right ==> d == -PlayerSpeed
    ensures !keys.left && keys.right ==> d == PlayerSpeed
  {
    (if keys.left then -PlayerSpeed else 0) + (if keys.right then PlayerSpeed else 0)
  }

  /** The player is inside the screen horizontally. */
  predicate OnScreen(r: Rect) {
    0 <= r.Left() && r.Right() <= Width
  }

  /** `Player.update`: move by the held keys, then set `left` to at least 0
      and `right` to at most the screen width, then count the cooldown down. */
  function UpdatePlayer(p: Player, keys: Keys): (r: Player)
    ensures r.rect.y == p.rect.y && r.rect.w == p.rect.w && r.rect.h == p.rect.h
    ensures p.rect.w <= Width ==> OnScreen(r.rect)
    ensures var target := p.rect.x + KeyDelta(keys);
            && (0 <= target && target + p.rect.w <= Width ==> r.rect.x == target)
            && (target < 0 && p.rect.w <= Width ==> r.rect.x == 0)
            && (target + p.rect.w > Width && target >= 0 ==> r.rect.x == Width - p.rect.w)
    ensures r.cooldown <= p.cooldown
    ensures r.cooldown < p.cooldown <==> p.cooldown > 0
    ensures r.cooldown == p.cooldown || r.cooldown == p.cooldown - 1
  {
    var moved := p.rect.x + KeyDelta(keys);
    var left := if moved < 0 then 0 else moved;
    var right := if left + p.rect.w > Width then Width else left + p.rect.w;
    var cooldown := if p.cooldown > 0 then p.cooldown - 1 else 0;
    Player(Rect(right - p.rect.w, p.rect.y, p.rect.w, p.rect.h), cooldown)
  }

  /** The player is updated twice in every frame: once with the polled keys
      and once more as a member of the group of all sprites, which polls the
      same keys again. */
  function UpdatePlayerTwice(p: Player, keys: Keys): Player
  {
    UpdatePlayer(UpdatePlayer(p, keys), keys)
  }

  /** A frame therefore moves the player by up to twice its speed and takes
      up to two units off the cooldown. */
  lemma UpdatePlayerTwiceEffect(p: Player, keys: Keys)
    requires p.rect.w <= Width && OnScreen(p.rect)
    ensures var r := UpdatePlayerTwice(p, keys);
            && OnScreen(r.rect)
            && -2 * PlayerSpeed <= r.rect.x - p.rect.x <= 2 * PlayerSpeed
            && (keys.left == keys.right ==> r.rect.x == p.rect.x)
            && (0 <= p.rect.x + 2 * KeyDelta(keys) <= Width - p.rect.w ==>
                 r.rect.x == p.rect.x + 2 * KeyDelta(keys))
            && r.cooldown == if p.cooldown >= 2 then p.cooldown - 2 else 0
  {
  }

  /** The player after one frame, with its double update, per entry of `keys`. */
  function UpdateFrames(p: Player, keys: seq<Keys>): Player
    decreases |keys|
  {
    if |keys| == 0 then p else UpdateFrames(UpdatePlayerTwice(p, keys[0]), keys[1..])
  }

  lemma {:induction false} CooldownAfterFrames(p: Player, keys: seq<Keys>)
    ensures UpdateFrames(p, keys).cooldown ==
            if p.cooldown >= 2 * |keys| then p.cooldown - 2 * |keys| else 0
    decreases |keys|
  {
    if |keys| > 0 {
      CooldownAfterFrames(UpdatePlayerTwice(p, keys[0]), keys[1..]);
    }
  }

  /** The bullet `Player.shoot` spawns: centred on the player's top edge. */
  function PlayerShot(p: Player): (b: Bullet)
    ensures b.rect.CenterX() == p.rect.CenterX() && b.rect.CenterY() == p.rect.Top()
    ensures b.rect.w == 4 && b.rect.h == 10 && b.vy == -BulletSpeed
  {
    Bullet(CenteredAt(p.rect.CenterX(), p.rect.Top(), 4, 10), -BulletSpeed)
  }

  /** `Player.shoot`: fires only with the cooldown at zero, and then restarts
      the cooldown; otherwise nothing changes. */
  function Shoot(p: Player): (r: (Player, Option<Bullet>))
    ensures r.1.Some? <==> p.cooldown == 0
    ensures r.1.Some? ==> r.1.value == PlayerShot(p) && r.0 == p.(cooldown := ShotCooldown)
    ensures r.1.None? ==> r.0 == p
    ensures r.0.rect == p.rect
  {
    if p.cooldown == 0 then (p.(cooldown := ShotCooldown), Some(PlayerShot(p))) else (p, None)
  }

  /** After a shot, the double update keeps the player from firing in the next
      five frames and lets it fire again in the sixth. */
  lemma ShotSpacing(p: Player, keys: seq<Keys>)
    requires p.cooldown == 0
    ensures var q := UpdateFrames(Shoot(p).0, keys);
            Shoot(q).1.Some? <==> |keys| >= ShotCooldown / 2
  {
    CooldownAfterFrames(Shoot(p).0, keys);
  }

  /** A player bullet stays while some part of it is within the screen's
      vertical extent. */
  predicate PlayerBulletInPlay(r: Rect) {
    r.Bottom() >= 0 && r.Top() <= Height
  }

  /** An enemy bullet only leaves through the bottom of the screen. */
  predicate EnemyBulletInPlay(r: Rect) {
    r.Top() <= Height
  }

  /** `Bullet.update`: move by `vy`; removed once wholly above or below the screen. */
  function StepPlayerBullet(b: Bullet): (r: Option<Bullet>)
    ensures r.Some? <==> b.rect.Bottom() + b.vy >= 0 && b.rect.Top() + b.vy <= Height
    ensures r.Some? ==> r.value.vy == b.vy && r.value.rect == b.rect.Shift(0, b.vy)
    ensures r.Some? ==> PlayerBulletInPlay(r.value.rect)
  {
    var moved := b.(rect := b.rect.Shift(0, b.vy));
    if moved.rect.Bottom() < 0 || moved.rect.Top() > Height then None else Some(moved)
  }

  /** `EnemyBullet.update`: move by `vy`; removed only once wholly below the screen. */
  function StepEnemyBullet(b: Bullet): (r: Option<Bullet>)
    ensures r.Some? <==> b.rect.Top() + b.vy <= Height
    ensures r.Some? ==> r.value.vy == b.vy && r.value.rect == b.rect.Shift(0, b.vy)
  {
    var moved := b.(rect := b.rect.Shift(0, b.vy));
    if moved.rect.Top() > Height then None else Some(moved)
  }

  /** `BarrierBlock.hit`: one unit of damage; the block goes once its health
      is no longer positive. */
  function Hit(b: Block): (r: Option<Block>)
    ensures r.None? <==> b.health <= 1
    ensures r.Some? ==> r.value.rect == b.rect && r.value.health == b.health - 1
    ensures r.Some? ==> r.value.health >= 1
  {
    var health := b.health - 1;
    if health <= 0 then None else Some(b.(health := health))
  }

  /** What `step` makes of each bullet of the group, position by position. */
  function Moves(bs: seq<Bullet>, step: Bullet -> Option<Bullet>): (r: seq<Option<Bullet>>)
    ensures |r| == |bs| && forall i :: 0 <= i < |bs| ==> r[i] == step(bs[i])
  {
    seq(|bs|, i requires 0 <= i < |bs| => step(bs[i]))
  }

  /** `update` over a whole bullet group, in group order: each bullet is moved
      by `step` and dropped when `step` removes it. */
  function Advance(bs: seq<Bullet>, step: Bullet -> Option<Bullet>): (r: seq<Bullet>)
    ensures |r| <= |bs|
    ensures forall i :: 0 <= i < |bs| && step(bs[i]).Some? ==> step(bs[i]).value in r
    ensures forall b :: b in r ==> exists i :: 0 <= i < |bs| && step(bs[i]) == Some(b)
    ensures |r| == |bs| <==> forall i :: 0 <= i < |bs| ==> step(bs[i]).Some?
    decreases |bs|
  {
    if |bs| == 0 then []
    else
      var rest := Advance(bs[1..], step);
      assert forall i :: 1 <= i < |bs| ==> bs[i] == bs[1..][i - 1];
      match step(bs[0])
      case None => rest
      case Some(b) => [b] + rest
  }

  /** The bullets kept are exactly the moved bullets that `step` keeps, in
      group order, each once. */
  lemma {:induction false} AdvanceInOrder(bs: seq<Bullet>, step: Bullet -> Option<Bullet>)
    ensures Advance(bs, step) == Somes(Moves(bs, step), 0)
    decreases |bs|
  {
    if |bs| > 0 {
      AdvanceInOrder(bs[1..], step);
      assert Moves(bs, step)[1..] == Moves(bs[1..], step);
      SomesCons(Moves(bs, step));
    }
  }

  /** After the update no player bullet lies wholly above or below the screen,
      and every bullet still partly on screen after its move is kept. */
  lemma AdvancePlayerBulletsInPlay(bs: seq<Bullet>)
    ensures var r := Advance(bs, StepPlayerBullet);
            && (forall b :: b in r ==> PlayerBulletInPlay(b.rect))
            && (forall i :: 0 <= i < |bs| && PlayerBulletInPlay(bs[i].rect.Shift(0, bs[i].vy)) ==>
                  Bullet(bs[i].rect.Shift(0, bs[i].vy), bs[i].vy) in r)
  {
  }

  /** After the update no enemy bullet lies wholly below the screen, and an
      enemy bullet is never removed for being above it. */
  lemma AdvanceEnemyBulletsInPlay(bs: seq<Bullet>)
    ensures var r := Advance(bs, StepEnemyBullet);
            && (forall b :: b in r ==> EnemyBulletInPlay(b.rect))
            && (forall i :: 0 <= i < |bs| && EnemyBulletInPlay(bs[i].rect.Shift(0, bs[i].vy)) ==>
                  Bullet(bs[i].rect.Shift(0, bs[i].vy), bs[i].vy) in r)
  {
  }
}

=== FILE: wrappers.dfy ===
/** The optional-value wrapper shared by every module: a sprite that a frame
    removes from its group is `None`. */
module Wrappers {

  datatype Option<+T> = None | Some(value: T)
}
